=== FILE: README.md ===
# Authentication core: rate limiting, OTP and reset-token lifecycle, error classification, validators

A Dafny model of the authentication service's core. It has four parts:

- **The fixed-window rate limiter** (`src/middleware/Ratelimitor.ts`).
  - One store maps request-derived keys to mutable records `{count, resetTime, firstRequestTime}`.
  - The middleware opens a window or counts the call in the current one, and rejects once the count exceeds the limit.
  - A skip option can give a call back after the response.
  - A periodic sweep, a status query and two clear operations work on the same store.
- **The authentication handlers** (`src/controller/auth.controller.ts`) as transitions over three tables: users, OTP codes keyed by email, and password-reset tokens.
  - OTP issue: `GenerateOtp`. OTP consumption: `RegisterUser`.
  - Reset-link issue: `ForgotPassword`. Verification: `VerifyResetToken`. Consumption: `ResetPassword`.
  - `LoginUser` checks the stored password hash.
- **The catch chain of `asyncHandler`** (`src/utils/asyncHandler.ts`) and the error classes of `src/utils/Error.ts`: every thrown value becomes exactly one error passed on.
- **The request validators** of `src/utils/schema.ts`.

Modules, one file each:

- `Text` (`text.dfy`): JavaScript string semantics the code relies on.
  - `length` counts UTF-16 code units.
  - `toLowerCase`, `trim`, `includes` and `join`.
  - Powers of ten.
- `AppErrors` (`errors.dfy`): the error classes.
- `ErrorClassification` (`error_classification.dfy`): `asyncHandler`, `handlePrismaError` and `formatZodError`.
- `Schemas` (`schemas.dfy`): the zod schemas as functions from a JSON body to the parsed data or a rejection.
- `RateLimit` (`rate_limiter.dfy`):
  - the store as the class `RateLimiter`, whose records are objects of the class `RateLimitRecord`;
  - window arithmetic on values, which the methods are proved against.
- `AuthFlows` (`auth_flows.dfy`): each handler as a function from the tables and the request to the new tables and the reply.
- `AuthProperties` (`auth_properties.dfy`): multi-call properties, covering invariants and issue-then-consume round trips.
- `AuthService` (`auth_service.dfy`): the class `AuthController`, which holds the tables and updates them step by step. Each method is proved to reach the tables and reply its `AuthFlows` function gives, and to keep the table constraints.

Inputs the model takes as parameters:

- The clock: milliseconds, as integers.
- The random choice behind `Math.random`: a natural number below the range size.
- The 32 bytes of `crypto.randomBytes`.
- Whether OTP e-mail dispatch succeeded.
- `NODE_ENV === 'production'`: a boolean.
- SHA-256, the HMAC password hash, and zod's `.email()` and `.url()` checks: the function fields of an `Env`.

## Model

| member | source | states |
|---|---|---|
| Text.Utf16Length | src/utils/schema.ts:8-10 | The `length` the schemas' `.min`/`.max` compare is between the number of characters and twice that; it equals the number of characters exactly when every character is in the Basic Multilingual Plane |
| Text.LowerFacts | src/middleware/Ratelimitor.ts:43-46 | `toLowerCase` (on ASCII letters) keeps the length, leaves no upper-case letter, and changes nothing in a string without one |
| Text.Trim | src/utils/schema.ts:15-19 | `trim` gives the input's slice between a white-space prefix and a white-space suffix, and that slice has no white space at either end; so it is "" exactly when the input is all white space, and an already trimmed string is returned unchanged |
| Text.Includes | src/utils/asyncHandler.ts:43-51 | `includes` is true exactly when the substring occurs at some index |
| Text.FirstCharAbsent | src/utils/asyncHandler.ts:43-51 | A message lacking the first character of a marker cannot include the marker |
| Text.JoinSnoc | src/utils/asyncHandler.ts:114-116 | Joining one more part appends the separator and that part |
| Text.DigitsOfRange | src/controller/auth.controller.ts:25-27 | Numbers in [10^(d-1), 10^d) have exactly d decimal digits |
| AppErrors.StatusCode | src/utils/Error.ts:10-36 | Exactly the four classes defined in Error.ts have a status code, and it is a 4xx code |
| AppErrors.DefaultMessage | src/utils/Error.ts:10-36 | Exactly the four defined classes have a default message |
| AppErrors.NewError | src/utils/Error.ts:1-8 | A constructed error keeps its class; a given message is kept, and an omitted one becomes the class's default |
| AppErrors.DefinedClasses | src/utils/Error.ts:10-36 | 400 'Bad Request', 401 'Unauthorized', 404 'Not Found', 409 'Already Exists' |
| AppErrors.MessageReplacesDefault | src/utils/Error.ts:4-7 | A supplied message replaces the default while the class, and so the status code, stays the same |
| ErrorClassification.Raise | src/utils/Error.ts:1-8 | A thrown application error carries its class's status code and its message, and `isOperational` is undefined |
| ErrorClassification.TargetField | src/utils/asyncHandler.ts:75 | The conflicting field is the first entry of an array `meta.target`, or the first character of a string target; it is 'field' when the target is missing, empty, or its first entry is empty; never "" |
| ErrorClassification.HandlePrismaError | src/utils/asyncHandler.ts:71-109 | P2002 gives Conflict '<field> already exists'. P2025, P2003, P2011 and P2014 give BadRequest 'Record not found', 'Invalid reference', 'Required field is missing' and 'Invalid relation', and the four connection codes give ServiceUnavailable 'Database connection error'. Exactly the other codes give InternalServer, with the generic message in production and 'Database error: <message>' otherwise |
| ErrorClassification.FormatZodError | src/utils/asyncHandler.ts:112-119 | Without an errors array the message is 'Validation failed'; with one issue it is `path.join('.') + ": " + message` |
| ErrorClassification.FormatZodErrorSnoc | src/utils/asyncHandler.ts:112-119 | Each further issue appends ", " and its text |
| ErrorClassification.Classify | src/utils/asyncHandler.ts:18-66 | A thrown value is passed on unchanged exactly when it has a truthy `statusCode` and a defined `isOperational`. Otherwise the new error is BadRequest, Conflict, ServiceUnavailable or InternalServer |
| ErrorClassification.FirstRuleFrom | src/utils/asyncHandler.ts:18-66 | Scanning the ordered tests from any point finds an applicable one, with none applicable before it |
| ErrorClassification.FirstRule | src/utils/asyncHandler.ts:18-66 | Every thrown value has exactly one first applicable test: the chain is total |
| ErrorClassification.ClassifyFollowsRuleTable | src/utils/asyncHandler.ts:18-66 | The chain's result is the outcome of the first test, in source order, that applies |
| ErrorClassification.ProductionHidesUnknownMessages | src/utils/asyncHandler.ts:58-65 | An unrecognised error becomes InternalServer. Its message is 'An unexpected error occurred' in production and the error's own message otherwise |
| ErrorClassification.OwnErrorsNotForwarded | src/utils/asyncHandler.ts:20-65 | An application error, as the class is written, fails the first test. Unless its message mentions a database marker, it becomes a generic InternalServer error |
| ErrorClassification.ConflictBecomesInternal | src/controller/auth.controller.ts:74-76 | The sign-up conflict reaches the client in production as InternalServer 'An unexpected error occurred' (Findings) |
| ErrorClassification.RaiseOperational | src/utils/Error.ts:1-8 | The application error as the chain expects it: same status code and message, with `isOperational` true (Findings) |
| ErrorClassification.OperationalErrorsForwarded | src/utils/asyncHandler.ts:20-22 | Such an error of a defined class is passed on unchanged |
| Schemas.TestClass | src/utils/schema.ts:11-13 | A one-class regex test is true exactly when some character is in the class |
| Schemas.AllOfClass | src/utils/schema.ts:25-28 | An anchored `[class]*` test is true exactly when every character is in the class |
| Schemas.PasswordAccepts | src/utils/schema.ts:8-13 | A password is accepted exactly when its length is at least 8 and it has an A-Z, an a-z and a 0-9 |
| Schemas.UsernameAccepts | src/utils/schema.ts:21-29 | A username is accepted exactly when it has 3 to 30 characters, all from [a-zA-Z0-9._-] |
| Schemas.ResetTokenAccepts | src/utils/schema.ts:31-37 | A token is accepted exactly when it has 64 characters, all from [a-f0-9]; so no upper-case hex digit is accepted |
| Schemas.NormaliseEmail | src/utils/schema.ts:15-19 | A normalised email is the lower-cased input with its leading and trailing white space cut off; it has no upper-case letter and no surrounding white space |
| Schemas.TrimLowerIsSlice | src/utils/schema.ts:15-19 | `.toLowerCase().trim()` cuts from the lower-cased email exactly the white space at the ends of the input |
| Schemas.NormaliseEmailIdempotent | src/utils/schema.ts:15-19 | Normalising twice is normalising once |
| Schemas.EmailSchema | src/utils/schema.ts:15-19 | An email is accepted exactly when it is a string passing `.email()`; the result is its normalised form |
| Schemas.LoginSchema | src/utils/schema.ts:43-53 | Accepted exactly when each present field has the right type and check and the password is a non-empty string. The other conditions are a boolean `rememberMe` and a non-blank email or a username. The parsed email has no upper-case letter, and `rememberMe` defaults to false |
| Schemas.SignupSchema | src/utils/schema.ts:55-82 | Accepted exactly when no unknown key is present, the username, email and password rules hold, `otp` is a positive integer and `acceptTerms` is true. Any gender must be listed, any bio at most 160 long, any picture a URL and any age an integer in 13..120. The parsed email is the normalised one |
| Schemas.GenerateOtpSchema | src/utils/schema.ts:84-86 | Accepted exactly when `email` is a string passing `.email()`; gives the normalised email |
| Schemas.ForgotPasswordSchema | src/utils/schema.ts:92-95 | As above, with an optional string `ip` |
| Schemas.VerifyResetTokenSchema | src/utils/schema.ts:97-99 | Accepted exactly when `token` passes the reset-token rules; gives the token unchanged, 64 long |
| Schemas.ResetPasswordSchema | src/utils/schema.ts:101-110 | Accepted exactly when the token rules hold, the new password is strong, the confirmation is non-empty and the two passwords are equal |
| RateLimit.IpKey | src/middleware/Ratelimitor.ts:39-41 | The key is the truthy `req.ip`, else the truthy socket address, else 'unknown'; never "" |
| RateLimit.EmailKey | src/middleware/Ratelimitor.ts:43-46 | The key is the lower-cased truthy body email, else 'no-email'; it has no upper-case letter |
| RateLimit.EmailKeyIgnoresCase | src/middleware/Ratelimitor.ts:43-52 | Emails differing only in case share the email key and, from the same address, the email-and-IP key |
| RateLimit.EmailIpKey | src/middleware/Ratelimitor.ts:48-52 | The key is the lower-cased truthy body email, or 'no-email', then a hyphen, then the IP key; it always ends with the IP key |
| RateLimit.EmailIpKeyDeterminesParts | src/middleware/Ratelimitor.ts:48-52 | For hyphen-free addresses, equal email-and-IP keys have equal email keys and equal IP keys |
| RateLimit.Settle | src/middleware/Ratelimitor.ts:54-62 | Omitted options become the default message, IP keying and no skipping |
| RateLimit.LimiterSettings | src/middleware/Ratelimitor.ts:120-193 | The nine limiters' windows, limits and keys, none with a skip option |
| RateLimit.Advance | src/middleware/Ratelimitor.ts:69-80 | With no record, or once `now > resetTime`, a fresh window opens with count 1, `resetTime = now + windowMs` and `firstRequestTime = now`. Otherwise the count grows by exactly 1 and both times stay |
| RateLimit.CeilDiv | src/middleware/Ratelimitor.ts:83 | The quotient q rounds up: d(q-1) < n <= dq |
| RateLimit.Decide | src/middleware/Ratelimitor.ts:82-95 | Remaining is max(0, max - count). A call is rejected, with the limiter's message, exactly when count > max. Retry-After, set only then, is the window's rest rounded up to seconds |
| RateLimit.RolledBack | src/middleware/Ratelimitor.ts:97-109 | The count drops by one exactly when the status is 2xx with skipSuccessfulRequests, or at least 400 with skipFailedRequests, and the count is positive; it never goes below 0 |
| RateLimit.Swept | src/middleware/Ratelimitor.ts:27-37 | The sweep keeps exactly the entries with `resetTime >= now`, unchanged |
| RateLimit.SweepUnobservable | src/middleware/Ratelimitor.ts:27-80 | A sweep at or before a call's time does not change what the call records |
| RateLimit.BurstWithinWindow | src/middleware/Ratelimitor.ts:69-80 | Calls inside the window the first opens are all counted in it, rejected ones included |
| RateLimit.BurstDecisions | src/middleware/Ratelimitor.ts:80-95 | From an empty key, call i of one window is rejected exactly when i > max, and reports max(0, max - i) remaining |
| RateLimit.SharedStoreAcrossLimiters | src/middleware/Ratelimitor.ts:130-193 | The register and global limiters key by IP into the one store. A call through each, within the hour, counts twice in the register limiter's window |
| RateLimit.RateLimitRecord.constructor | src/middleware/Ratelimitor.ts:72-76 | A fresh record: count 0, `resetTime = now + windowMs`, `firstRequestTime = now` |
| RateLimit.RateLimiter.constructor | src/middleware/Ratelimitor.ts:24 | The store starts empty |
| RateLimit.RateLimiter.Admit | src/middleware/Ratelimitor.ts:66-113 | Only the entry for the request's key changes, to `Advance` of its old contents; the decision is `Decide` on the new contents. A rollback hook, the record itself, is returned exactly when the call passed and a skip option is on |
| RateLimit.RateLimiter.Rollback | src/middleware/Ratelimitor.ts:97-113 | The hooked record's count becomes `RolledBack` of the old count; its times stay |
| RateLimit.RateLimiter.Sweep | src/middleware/Ratelimitor.ts:27-37 | The store's contents become `Swept` of the old contents |
| RateLimit.RateLimiter.Status | src/middleware/Ratelimitor.ts:195-215 | The key comes from the given generator, `getIpKey` when none is given. Not limited exactly when there is no record or `now > resetTime`. Otherwise limited whatever the count, with the record's count and reset time and max(0, resetTime - now) remaining |
| RateLimit.RateLimiter.Clear | src/middleware/Ratelimitor.ts:218-221 | Exactly the request's key, by the given generator or `getIpKey` by default, is removed |
| RateLimit.RateLimiter.ClearAll | src/middleware/Ratelimitor.ts:224-228 | The store is empty |
| AuthFlows.FindUserFrom | src/controller/auth.controller.ts:36-40 | The first user from a position on that matches the filter, or none matching |
| AuthFlows.FindUser | src/controller/auth.controller.ts:36-40 | `findFirst`/`findUnique` on users: the first matching row in the model's creation order, or none; an undefined email filters nothing |
| AuthFlows.FindTokenFrom | src/controller/auth.controller.ts:246-250 | The first token from a position on that matches the filter, or none matching |
| AuthFlows.FindToken | src/controller/auth.controller.ts:246-250 | The lookup by hash, by user id, or of a colliding hash: the first matching row, or none |
| AuthFlows.Without | src/controller/auth.controller.ts:256-260 | Deleting a row keeps every other row, in order |
| AuthFlows.CreateOtpNumber | src/controller/auth.controller.ts:20-28 | A failure exactly when digits <= 0; otherwise a value in [10^(digits-1), 10^digits - 1], with exactly `digits` digits |
| AuthFlows.OtpChoicesCoverRange | src/controller/auth.controller.ts:25-27 | Every number of that many digits is the code of some random choice |
| AuthFlows.SixDigitCodes | src/controller/auth.controller.ts:119 | As called, the code is in [100000, 999999] |
| AuthFlows.Hex | src/controller/auth.controller.ts:181-182 | Hex encoding gives two lower-case hex digits per byte |
| AuthFlows.HexRoundTrip | src/controller/auth.controller.ts:181-182 | Decoding the hex gives the bytes back, so distinct byte strings give distinct tokens |
| AuthFlows.IssuedTokenPassesSchema | src/controller/auth.controller.ts:181-182 | A token from 32 random bytes passes the reset-token schema |
| AuthFlows.LoginUser | src/controller/auth.controller.ts:30-58 | The tables never change, and a schema failure gives 'Invalid credentails type'. Success happens exactly when the first user matching the raw body email has a truthy stored hash equal to the password's hash. The success payload puts the user's name in both `email` and `name`; every other failure is the same NotFound |
| AuthFlows.RegisterUser | src/controller/auth.controller.ts:60-111 | A schema failure and a taken email change nothing. With no OTP row for the normalised email holding that code, the reply is NotFound 'Invalid OTP' and nothing changes. A matching code with `expiresAt < now` is deleted, with BadRequest 'OTP expired, please request a new one'. Otherwise the user is appended with the next id and the password hash, and the code is deleted. Failures leave the users; the OTP table changes only by deleting the matched code |
| AuthFlows.GenerateOtp | src/controller/auth.controller.ts:113-147 | As written: the schema result is never rejected, and a falsy email gives 'Email is required'. A non-string email fails at the database. A string email upserts its own OTP row, a six-digit code expiring in 300000 ms, under the raw email; the row is kept even when dispatch fails (Findings) |
| AuthFlows.GenerateOtpNormalised | src/controller/auth.controller.ts:113-147 | As intended: a schema failure is refused, and the row is keyed by the normalised email. Only the OTP table changes, and every key written is lower-case and trimmed (Findings) |
| AuthFlows.UpsertToken | src/controller/auth.controller.ts:191-208 | The user's token row is replaced in place, or a row is appended when the user has none |
| AuthFlows.ForgotPassword | src/controller/auth.controller.ts:149-229 | A schema failure gives 'Invalid credentials type'. An email that belongs to no user gets the notice and changes nothing. A found user whose new hash collides with no other user's row gets the notice, with the upsert done; when another user's row holds the hash, the upsert throws the unique-constraint error and nothing changes. A throw after the schema is always that collision. Users and OTPs never change. The token table changes only by the upsert of the user found by the raw email: the new hash, unused, expiring in 900000 ms, with the request's ip |
| AuthFlows.VerifyResetToken | src/controller/auth.controller.ts:231-278 | A schema failure, and an unknown hash ('Invalid or expired reset token'), change nothing. A used token, and else an expired one (`now > expiresAt`), is deleted, with 'This reset link has already been used' or 'Reset token has expired…'. Otherwise the token is valid and nothing changes |
| AuthFlows.ResetPassword | src/controller/auth.controller.ts:280-374 | An unknown hash ('Invalid or expired reset token') and a used token ('already used') change nothing. An expired token, and one whose user is missing ('User not found'), is deleted. Otherwise the user's password becomes the new hash and the token is deleted, together. Failures leave the users |
| AuthProperties.WithoutKeepsTokensDistinct | src/controller/auth.controller.ts:256-260 | Deleting a token keeps hashes and user ids unique |
| AuthProperties.AppendUserKeepsValid | src/controller/auth.controller.ts:94-101 | Creating a user with a new email and the next id keeps emails and ids unique and ids issued |
| AuthProperties.RegisterKeepsValid | src/controller/auth.controller.ts:60-111 | RegisterUser keeps the table constraints |
| AuthProperties.GenerateOtpKeepsValid | src/controller/auth.controller.ts:122-135 | The OTP upsert keeps the table constraints, as written (keyed by the raw email) and as corrected |
| AuthProperties.UpsertKeepsTokensDistinct | src/controller/auth.controller.ts:191-208 | The token upsert keeps both uniqueness constraints when no other user's row has the hash |
| AuthProperties.ForgotKeepsValid | src/controller/auth.controller.ts:149-229 | ForgotPassword keeps the table constraints |
| AuthProperties.VerifyKeepsValid | src/controller/auth.controller.ts:231-278 | VerifyResetToken keeps the table constraints |
| AuthProperties.ResetKeepsValid | src/controller/auth.controller.ts:280-374 | ResetPassword keeps the table constraints |
| AuthProperties.HandleKeepsValid | src/controller/auth.controller.ts:30-374 | Every handler, GenerateOtp as written included, keeps the table constraints |
| AuthProperties.ForgotKeepsNeverUsed | src/controller/auth.controller.ts:191-208 | The token upsert writes `used = false` in both branches, so ForgotPassword stores no used token |
| AuthProperties.VerifyKeepsNeverUsed | src/controller/auth.controller.ts:231-278 | VerifyResetToken only deletes rows, so it stores no used token |
| AuthProperties.ResetKeepsNeverUsed | src/controller/auth.controller.ts:280-374 | ResetPassword only deletes rows and sets a password, so it stores no used token |
| AuthProperties.HandleKeepsNeverUsed | src/controller/auth.controller.ts:195-206 | Both upsert branches write `used = false`, so no handler, GenerateOtp as written included, stores a used token |
| AuthProperties.RunKeepsInvariants | src/controller/auth.controller.ts:30-374 | Any sequence of calls of the handlers as written keeps the constraints and leaves no token used |
| AuthProperties.EmptyDbInvariants | src/controller/auth.controller.ts:18 | The empty tables satisfy the constraints |
| AuthProperties.UsedBranchesUnreachable | src/controller/auth.controller.ts:255-313 | With no used token stored, neither handler ever replies 'This reset link has already been used' |
| AuthProperties.ZeroIdUnreachable | src/controller/auth.controller.ts:172 | Ids start at 1, so the `!existUser.id` test never fires |
| AuthProperties.UsernameLoginChecksFirstUser | src/controller/auth.controller.ts:35-45 | A login without an email checks the password against the first row the unfiltered lookup returns (the earliest-created user, in this model), whatever the username, and answers with that user's name |
| AuthProperties.LoginFailureBecomesInternal | src/controller/auth.controller.ts:42 | As the error class is written, that NotFound reaches the client as InternalServer |
| AuthProperties.OtpRowCode | src/controller/auth.controller.ts:119-120 | The issued code is 100000 plus the choice, expiring 300000 ms after issue |
| AuthProperties.IssueThenRegister | src/controller/auth.controller.ts:78-103 | Issuing a code for a normalised email and signing up with it within five minutes creates the user and consumes the code |
| AuthProperties.OtpRegistersOnce | src/controller/auth.controller.ts:70-103 | A successful sign-up removes the code, and repeating it is refused as a conflict with nothing changed |
| AuthProperties.ReissueInvalidatesEarlierCode | src/controller/auth.controller.ts:122-135 | After a second, different code is issued for the same raw email, its row holds the second code, and signing up with the first gives 'Invalid OTP' |
| AuthProperties.MixedCaseEmailNeverRegisters | src/controller/auth.controller.ts:116-135 | As written, a code issued for an address with an upper-case letter is stored under the raw address, and signing up with it gives 'Invalid OTP' (Findings) |
| AuthProperties.NormalisedIssueThenRegister | src/controller/auth.controller.ts:113-135 | With the corrected issue, any accepted address registers with the code it was sent, whatever its case or surrounding spaces (Findings) |
| AuthProperties.UpsertPlacesRow | src/controller/auth.controller.ts:191-208 | The upserted row is in the table, and other users' rows stay |
| AuthProperties.ForgotIssuesOneToken | src/controller/auth.controller.ts:181-208 | Afterwards the user has exactly one token row: the new hash, unused, expiring 900000 ms after the request; other users' rows stay |
| AuthProperties.ForgotRevealsNothing | src/controller/auth.controller.ts:171-227 | For a well-formed request, a database where the email is registered (no hash collision) and one where it is not both reply with the same 'If your email is registered…' notice |
| AuthProperties.ForgotThenVerify | src/controller/auth.controller.ts:244-276 | The emailed token verifies as valid for fifteen minutes, without changing the tables |
| AuthProperties.ResetConsumesToken | src/controller/auth.controller.ts:347-362 | After a reset, the same token neither verifies nor resets again ('Invalid or expired reset token') |
| AuthProperties.ResetThenLogin | src/controller/auth.controller.ts:344-362 | After a reset, the owner logs in with the new password |
| AuthService.AuthController.constructor | src/controller/auth.controller.ts:18 | The tables start empty and satisfy the constraints |
| AuthService.AuthController.FindUserIndex | src/controller/auth.controller.ts:36-40 | The scan returns `FindUser` of the table |
| AuthService.AuthController.FindTokenIndex | src/controller/auth.controller.ts:246-250 | The scan returns `FindToken` of the table |
| AuthService.AuthController.LoginUser | src/controller/auth.controller.ts:30-58 | The reply is that of `AuthFlows.LoginUser` on the current tables |
| AuthService.AuthController.RegisterUser | src/controller/auth.controller.ts:60-111 | The tables and reply are those of `AuthFlows.RegisterUser`; the constraints are kept |
| AuthService.AuthController.GenerateOtp | src/controller/auth.controller.ts:113-147 | The tables and reply are those of `AuthFlows.GenerateOtp`, the handler as written; the constraints are kept |
| AuthService.AuthController.ForgotPassword | src/controller/auth.controller.ts:149-229 | The tables and reply are those of `AuthFlows.ForgotPassword`; the constraints are kept |
| AuthService.AuthController.VerifyResetToken | src/controller/auth.controller.ts:231-278 | The tables and reply are those of `AuthFlows.VerifyResetToken`; the constraints are kept |
| AuthService.AuthController.ResetPassword | src/controller/auth.controller.ts:280-374 | The tables and reply are those of `AuthFlows.ResetPassword`, with both writes of the transaction in one step; the constraints are kept |

## Left out

- Letter case beyond ASCII: `toLowerCase` is modelled on A-Z only. Non-ASCII letters keep their case in this model.
- Floating point: JSON numbers are reals. `NaN` and infinities are not modelled, and neither is float rounding in `Math.ceil` or in the millisecond arithmetic.
- Cryptography: SHA-256 and the HMAC password hash are uninterpreted functions of an `Env`. `timingSafeEqual` is modelled as equality of the stored and computed hashes. Its length-mismatch error, for a stored hash of another length, is not modelled.
- The `PASSWORD_SECRET` check in `src/utils/password.ts`: it throws when the secret is missing, and is assumed to be set.
- HTTP headers: `X-RateLimit-*` and `Retry-After` are fields of a `Decision`. The ISO-8601 rendering of the reset time is left out.
- `setInterval`: the sweep is a method called with the time it runs at. Its five-minute schedule is not modelled.
- Express and Prisma plumbing:
  - routing, `res.send` patching, `sendSuccess`/`sendError`, `errorHandler` and server start-up;
  - the handlers' replies are envelopes `{message, data, statusCode}`;
  - the `updateAt` timestamps are not stored.
- The limiters are configured but attached to no route, so they are not composed with the handlers.
- Row order: Prisma's `findFirst` without `orderBy` returns whichever matching row the database yields first, an order SQL leaves undefined. The model scans users and tokens in creation order and updates rows in place, so a username-only login checks the earliest-created user; the database may pick another row.
- Admit (`RateLimit.RateLimiter.Admit`): the store is a plain object, so a key equal to an inherited property name ('constructor', '__proto__', 'toString', …, reachable through a body email sent to an email-keyed limiter) finds a truthy non-record there; the source then counts to NaN and throws a RangeError on the reset-time header, ending in a 500. The model's store holds only what the limiter put in it, so such a key opens a fresh window.
- Status (`RateLimit.RateLimiter.Status`): for the same inherited keys the source reports `limited: true` with undefined fields; the model treats the key as absent and reports not limited.
- Concurrency: interleaving at `await` points is not modelled. Each handler is one sequential transition, and the password transaction is one step.
- RateLimit.EmailKey: a non-string truthy `req.body.email` (for which `toLowerCase` would throw) is not modelled; the email is a string or absent.
- Prisma error messages: the text of a Prisma client error (`PrismaThrown(_, None)`) is not tracked. The validation error a non-string email triggers is modelled by its class only.
- E-mail dispatch: the outcome of sending the OTP is a boolean input.
  - The reset-link e-mail uses a type the dispatcher does not know, so its result is always a failure; `ForgotPassword` ignores it.
  - The password-reset confirmation e-mail, whose result is also ignored, is left out.
- `NotFoundAuthRoute` and the `console.log` calls are not part of this model.

## Findings

| source | as written | input that shows it | evidently intended | confidence | as-written member | corrected member |
|---|---|---|---|---|---|---|
| src/utils/Error.ts:1-8 | `AppError` sets `statusCode` but never `isOperational`, so the pass-through test at src/utils/asyncHandler.ts:20 fails for the application's own errors | RegisterUser throws `ConflictError('Email already exists')` with `NODE_ENV=production`: the client gets InternalServerError 'An unexpected error occurred' instead of 409 | Application errors pass through unchanged, with their own status code and message | not executed | ErrorClassification.ConflictBecomesInternal | ErrorClassification.OperationalErrorsForwarded |
| src/controller/auth.controller.ts:113-135 | GenerateOtp's `!result` test never fires, and the OTP row is keyed by the raw `req.body.email`; RegisterUser looks the code up under the schema's lower-cased, trimmed email | GenerateOtp with email 'Alice@example.com', then sign-up with the same address and the code sent: 'Invalid OTP' | Validate with `generateOtpSchema` and key the row by the normalised email | not executed; assumes a case-sensitive email column | AuthProperties.MixedCaseEmailNeverRegisters | AuthProperties.NormalisedIssueThenRegister |

The rest of the model follows the code as written: every handler's thrown application error is built by `AuthFlows.Fail` with `ErrorClassification.Raise`, and the call dispatcher `AuthProperties.Handle` and `AuthService.AuthController.GenerateOtp` run `AuthFlows.GenerateOtp`. `ErrorClassification.RaiseOperational` and `AuthFlows.GenerateOtpNormalised` are the corrected definitions, used only by the corrected half of each finding.

=== FILE: auth_flows.dfy ===
/** The authentication handlers of src/controller/auth.controller.ts as
    transitions over the database: each handler takes the tables and the
    request and gives the new tables and what it sends or throws. The
    SHA-256 digest, the HMAC password hash and the schema's `.email()` and
    `.url()` checks are the functions of an `Env`; the clock, the random
    choice behind `Math.random`, the bytes of `crypto.randomBytes` and the
    outcome of e-mail dispatch are parameters. */
module AuthFlows {
  import opened Text
  import opened AppErrors
  import opened ErrorClassification
  import opened Schemas

  /** The primitives the handlers call but the model does not define. */
  datatype Env = Env(
    isEmail: string -> bool,
    isUrl: string -> bool,
    sha256Hex: string -> string,
    passwordHash: string -> string)

  // ---------------------------------------------------------------- tables

  /** A row of the user table; `password` holds the stored hash and is
      nullable. */
  datatype User = User(id: nat, email: string, name: string, password: Option<string>)

  /** A row of the OTP table, unique on `email`. */
  datatype OtpRecord = OtpRecord(email: string, otp: int, purpose: string, expiresAt: int)

  /** A row of the reset-token table, unique on `userId` and on `tokenHash`. */
  datatype ResetToken = ResetToken(userId: nat, tokenHash: string, expiresAt: int, used: bool, ipAddress: string)

  /** The three tables. Users and tokens are kept in scan order, because a
      lookup without a filter returns the first row; OTPs are keyed by
      their unique email. `nextUserId` is the next autoincrement id. */
  datatype Db = Db(users: seq<User>, otps: map<string, OtpRecord>, tokens: seq<ResetToken>, nextUserId: nat)

  const EmptyDb := Db([], map[], [], 1)

  /** The database constraints the tables obey: unique emails and ids,
      autoincrement ids starting at 1, OTP rows stored under their own
      email, and reset tokens unique on user id and on hash. */
  predicate Valid(db: Db)
  {
    UsersDistinct(db.users) && IdsIssued(db.users, db.nextUserId) && OtpsKeyed(db.otps) && TokensDistinct(db.tokens)
  }

  predicate UsersDistinct(users: seq<User>)
  {
    forall i, j :: 0 <= i < j < |users| ==> users[i].email != users[j].email && users[i].id != users[j].id
  }

  predicate IdsIssued(users: seq<User>, nextUserId: nat)
  {
    && 1 <= nextUserId
    && forall i :: 0 <= i < |users| ==> 1 <= users[i].id < nextUserId
  }

  predicate OtpsKeyed(otps: map<string, OtpRecord>)
  {
    forall e :: e in otps ==> otps[e].email == e
  }

  predicate TokensDistinct(tokens: seq<ResetToken>)
  {
    forall i, j :: 0 <= i < j < |tokens| ==>
      tokens[i].tokenHash != tokens[j].tokenHash && tokens[i].userId != tokens[j].userId
  }

  /** No stored reset token is marked used. */
  predicate NeverUsed(db: Db)
  {
    forall i :: 0 <= i < |db.tokens| ==> !db.tokens[i].used
  }

  // ---------------------------------------------------------------- replies

  /** The `data` of a success envelope. */
  datatype Data = NoData | Credentials(email: string, name: string) | TokenValidity(valid: bool)

  /** `sendSuccess(res, data, message, statusCode)`: the `{success: true,
      message, data, statusCode}` body. */
  datatype Envelope = Envelope(message: string, data: Data, statusCode: int)

  /** A handler either sends a success envelope or throws. */
  datatype Reply = Sent(envelope: Envelope) | Threw(error: Thrown)

  datatype Step = Step(db: Db, reply: Reply)

  /** `throw new XError(message)`: the application error as the class
      builds it, with `isOperational` left undefined (see `Raise`). */
  function Fail(e: AppError): Reply { Threw(Raise(e)) }

  const LoginSchemaFailed := "Invalid credentails type"
  const InvalidLogin := "Invalid uername or password!!"
  const LoginSucceeded := "User login successfully"
  const SignupSchemaFailed := "Invalid credential types"
  const EmailTaken := "Email already exists"
  const InvalidOtp := "Invalid OTP"
  const OtpExpired := "OTP expired, please request a new one"
  const Registered := "User registered successfully \U{1F389}"
  const EmailRequired := "Email is required"
  const OtpDispatchFailed := "Something went wrong while sending OTP"
  const OtpSent := "OTP email sent successfully"
  const RequestSchemaFailed := "Invalid credentials type"
  const ResetLinkNotice := "If your email is registered, you will receive a reset link"
  const TokenRequired := "Token is required"
  const InvalidToken := "Invalid or expired reset token"
  const TokenUsed := "This reset link has already been used"
  const TokenExpired := "Reset token has expired. Please request a new one"
  const TokenValid := "Token is valid"
  const ResetSchemaFailed := "Invalid credentials types"
  const PasswordsDiffer := "Passwords do not match"
  const UserMissing := "User not found"
  const PasswordReset := "Password reset successfully"

  /** The unique-constraint violation Prisma raises when an upsert would
      store a token hash another row already holds. */
  const TokenHashTaken := PrismaThrown(KnownRequest("P2002", TargetFields(["token_hash"])), None)

  // ---------------------------------------------------------------- lookups

  datatype UserFilter = EmailIs(email: Option<string>) | IdIs(id: nat)

  /** A Prisma `where` on the user table; an undefined email filters nothing. */
  predicate UserMatches(u: User, f: UserFilter)
  {
    match f
    case EmailIs(e) => e.None? || u.email == e.value
    case IdIs(id) => u.id == id
  }

  /** Index of the first user from `from` on that matches `f`. */
  function FindUserFrom(users: seq<User>, f: UserFilter, from: nat): (i: Option<nat>)
    requires from <= |users|
    ensures i.Some? ==> from <= i.value < |users| && UserMatches(users[i.value], f)
    ensures i.Some? ==> forall j :: from <= j < i.value ==> !UserMatches(users[j], f)
    ensures i.None? ==> forall j :: from <= j < |users| ==> !UserMatches(users[j], f)
    decreases |users| - from
  {
    if from == |users| then None
    else if UserMatches(users[from], f) then Some(from)
    else FindUserFrom(users, f, from + 1)
  }

  /** `findFirst`/`findUnique` on the user table: the first matching row. */
  function FindUser(users: seq<User>, f: UserFilter): (i: Option<nat>)
    ensures i.Some? ==> i.value < |users| && UserMatches(users[i.value], f)
    ensures i.Some? ==> forall j :: 0 <= j < i.value ==> !UserMatches(users[j], f)
    ensures i.None? ==> forall j :: 0 <= j < |users| ==> !UserMatches(users[j], f)
  {
    FindUserFrom(users, f, 0)
  }

  /** `HashHeldByOther(h, u)` finds a row with hash `h` that belongs to
      another user than `u`: the rows an upsert for `u` would collide with. */
  datatype TokenFilter = HashIs(hash: string) | UserIs(userId: nat) | HashHeldByOther(hash: string, owner: nat)

  predicate TokenMatches(t: ResetToken, f: TokenFilter)
  {
    match f
    case HashIs(h) => t.tokenHash == h
    case UserIs(u) => t.userId == u
    case HashHeldByOther(h, u) => t.tokenHash == h && t.userId != u
  }

  function FindTokenFrom(tokens: seq<ResetToken>, f: TokenFilter, from: nat): (i: Option<nat>)
    requires from <= |tokens|
    ensures i.Some? ==> from <= i.value < |tokens| && TokenMatches(tokens[i.value], f)
    ensures i.Some? ==> forall j :: from <= j < i.value ==> !TokenMatches(tokens[j], f)
    ensures i.None? ==> forall j :: from <= j < |tokens| ==> !TokenMatches(tokens[j], f)
    decreases |tokens| - from
  {
    if from == |tokens| then None
    else if TokenMatches(tokens[from], f) then Some(from)
    else FindTokenFrom(tokens, f, from + 1)
  }

  /** A lookup on the token table: the first matching row. */
  function FindToken(tokens: seq<ResetToken>, f: TokenFilter): (i: Option<nat>)
    ensures i.Some? ==> i.value < |tokens| && TokenMatches(tokens[i.value], f)
    ensures i.Some? ==> forall j :: 0 <= j < i.value ==> !TokenMatches(tokens[j], f)
    ensures i.None? ==> forall j :: 0 <= j < |tokens| ==> !TokenMatches(tokens[j], f)
  {
    FindTokenFrom(tokens, f, 0)
  }

  /** A table without its row `i`. */
  function Without<T>(s: seq<T>, i: nat): (r: seq<T>)
    requires i < |s|
    ensures |r| == |s| - 1
    ensures forall k :: 0 <= k < i ==> r[k] == s[k]
    ensures forall k :: i <= k < |r| ==> r[k] == s[k + 1]
  {
    s[..i] + s[i + 1..]
  }

  // ---------------------------------------------------------------- random values

  /** `createOtpNumber(digits)`, with `Math.floor(Math.random() * (max -
      min + 1))` replaced by `choice`; None is the thrown 'Digits must be
      greater than 0'. */
  function CreateOtpNumber(digits: int, choice: nat): (r: Option<nat>)
    requires digits > 0 ==> choice < Pow10(digits) - Pow10(digits - 1)
    ensures r.None? <==> digits <= 0
    ensures r.Some? ==> Pow10(digits - 1) <= r.value <= Pow10(digits) - 1
    ensures r.Some? ==> DecimalDigits(r.value) == digits
  {
    if digits <= 0 then None
    else
      var min := Pow10(digits - 1);
      DigitsOfRange(choice + min, digits);
      Some(choice + min)
  }

  /** Every number of `digits` digits is the code of some choice. */
  lemma OtpChoicesCoverRange(digits: int, x: nat)
    requires digits > 0 && Pow10(digits - 1) <= x < Pow10(digits)
    ensures exists choice: nat :: choice < Pow10(digits) - Pow10(digits - 1) && CreateOtpNumber(digits, choice) == Some(x)
  {
    var choice: nat := x - Pow10(digits - 1);
    assert CreateOtpNumber(digits, choice) == Some(x);
  }

  const OtpDigits := 6
  /** The number of six-digit codes, `max - min + 1` as called. */
  const OtpChoices := 900000

  /** As called, the code is a six-digit number. */
  lemma SixDigitCodes(choice: nat)
    requires choice < OtpChoices
    ensures Pow10(OtpDigits) - Pow10(OtpDigits - 1) == OtpChoices
    ensures var c := CreateOtpNumber(OtpDigits, choice);
            c.Some? && 100000 <= c.value <= 999999 && DecimalDigits(c.value) == 6
  {
    assert Pow10(5) == 100000 && Pow10(6) == 1000000;
  }

  /** A byte of `crypto.randomBytes`. */
  newtype Byte = x: int | 0 <= x < 256

  const HexDigits := "0123456789abcdef"

  /** `buffer.toString('hex')`: two lower-case hex digits per byte. */
  function Hex(bytes: seq<Byte>): (s: string)
    ensures |s| == 2 * |bytes|
    ensures forall i :: 0 <= i < |s| ==> IsLowerHexDigit(s[i])
  {
    if bytes == [] then ""
    else [HexDigits[bytes[0] as int / 16], HexDigits[bytes[0] as int % 16]] + Hex(bytes[1..])
  }

  function HexValue(c: char): nat
  {
    if '0' <= c <= '9' then c as int - '0' as int
    else if 'a' <= c <= 'f' then c as int - 'a' as int + 10
    else 0
  }

  /** Reading two hex digits per byte back. */
  function Unhex(s: string): seq<Byte>
    requires |s| % 2 == 0
    ensures |Unhex(s)| == |s| / 2
  {
    if s == [] then []
    else
      var v := 16 * HexValue(s[0]) + HexValue(s[1]);
      [if v < 256 then v as Byte else 0] + Unhex(s[2..])
  }

  /** Hex encoding loses nothing: two different byte strings never give
      the same token. */
  lemma {:induction false} HexRoundTrip(bytes: seq<Byte>)
    ensures Unhex(Hex(bytes)) == bytes
    decreases |bytes|
  {
    if bytes != [] {
      var b := bytes[0] as int;
      var h := Hex(bytes);
      assert h[2..] == Hex(bytes[1..]);
      assert HexValue(HexDigits[b / 16]) == b / 16;
      assert HexValue(HexDigits[b % 16]) == b % 16;
      HexRoundTrip(bytes[1..]);
    }
  }

  /** A token made from 32 random bytes passes the reset-token schema. */
  lemma IssuedTokenPassesSchema(bytes: seq<Byte>)
    requires |bytes| == 32
    ensures ResetTokenAccepts(Hex(bytes))
  {
  }

  // ---------------------------------------------------------------- LoginUser

  /** The raw `req.body.email` LoginUser filters on (None: undefined). */
  function LoginFilter(body: Body): Option<string>
  {
    if "email" in body && body["email"].JString? then Some(body["email"].str) else None
  }

  /** `verifyPassword` against a user's stored hash, after the handler's
      `!existUser.password` test. */
  predicate PasswordMatches(env: Env, u: User, password: string)
  {
    Truthy(u.password) && env.passwordHash(password) == u.password.value
  }

  function LoginUser(env: Env, db: Db, body: Body): (r: Step)
    ensures r.db == db
    ensures LoginSchema(env.isEmail, body).None? ==> r.reply == Fail(BadRequestError(LoginSchemaFailed))
    ensures r.reply.Sent? <==>
              && LoginSchema(env.isEmail, body).Some?
              && var i := FindUser(db.users, EmailIs(LoginFilter(body)));
                 i.Some? && PasswordMatches(env, db.users[i.value], body["password"].str)
    ensures r.reply.Sent? ==>
              var u := db.users[FindUser(db.users, EmailIs(LoginFilter(body))).value];
              r.reply.envelope == Envelope(LoginSucceeded, Credentials(u.name, u.name), 200)
    ensures r.reply.Threw? && LoginSchema(env.isEmail, body).Some? ==> r.reply == Fail(NotFoundError(InvalidLogin))
  {
    if LoginSchema(env.isEmail, body).None? then Step(db, Fail(BadRequestError(LoginSchemaFailed)))
    else
      var password := body["password"].str;
      var i := FindUser(db.users, EmailIs(LoginFilter(body)));
      if i.None? || !Truthy(db.users[i.value].password) then Step(db, Fail(NotFoundError(InvalidLogin)))
      else
        var u := db.users[i.value];
        if env.passwordHash(password) != u.password.value then Step(db, Fail(NotFoundError(InvalidLogin)))
        else Step(db, Sent(Envelope(LoginSucceeded, Credentials(u.name, u.name), 200)))
  }

  // ---------------------------------------------------------------- RegisterUser

  /** The OTP table holds `otp` for `email`: the `findFirst({email, otp})` test. */
  predicate OtpMatches(otps: map<string, OtpRecord>, email: string, otp: int)
  {
    email in otps && otps[email].otp == otp
  }

  function RegisterUser(env: Env, db: Db, body: Body, now: int): (r: Step)
    ensures var p := SignupSchema(env.isEmail, env.isUrl, body);
            p.None? ==> r == Step(db, Fail(BadRequestError(SignupSchemaFailed)))
    ensures var p := SignupSchema(env.isEmail, env.isUrl, body);
            p.Some? && FindUser(db.users, EmailIs(Some(p.value.email))).Some? ==>
              r == Step(db, Fail(ConflictError(EmailTaken)))
    ensures var p := SignupSchema(env.isEmail, env.isUrl, body);
            r.reply.Sent? <==>
              && p.Some?
              && FindUser(db.users, EmailIs(Some(p.value.email))).None?
              && OtpMatches(db.otps, p.value.email, p.value.otp)
              && !(db.otps[p.value.email].expiresAt < now)
    ensures var p := SignupSchema(env.isEmail, env.isUrl, body);
            r.reply.Sent? ==>
              var d := p.value;
              && r.db == Db(db.users + [User(db.nextUserId, d.email, d.name, Some(env.passwordHash(d.password)))],
                            db.otps - {d.email}, db.tokens, db.nextUserId + 1)
              && r.reply.envelope == Envelope(Registered, Credentials(d.email, d.name), 200)
    ensures var p := SignupSchema(env.isEmail, env.isUrl, body);
            p.Some? && FindUser(db.users, EmailIs(Some(p.value.email))).None?
            && !OtpMatches(db.otps, p.value.email, p.value.otp) ==>
              r == Step(db, Fail(NotFoundError(InvalidOtp)))
    ensures var p := SignupSchema(env.isEmail, env.isUrl, body);
            p.Some? && FindUser(db.users, EmailIs(Some(p.value.email))).None?
            && OtpMatches(db.otps, p.value.email, p.value.otp) && db.otps[p.value.email].expiresAt < now ==>
              r == Step(db.(otps := db.otps - {p.value.email}), Fail(BadRequestError(OtpExpired)))
    ensures r.db.tokens == db.tokens
    ensures r.reply.Threw? ==> r.db.users == db.users && r.db.nextUserId == db.nextUserId
    ensures r.db.otps != db.otps ==>
              var p := SignupSchema(env.isEmail, env.isUrl, body);
              p.Some? && OtpMatches(db.otps, p.value.email, p.value.otp) && r.db.otps == db.otps - {p.value.email}
  {
    var p := SignupSchema(env.isEmail, env.isUrl, body);
    if p.None? then Step(db, Fail(BadRequestError(SignupSchemaFailed)))
    else
      var d := p.value;
      if FindUser(db.users, EmailIs(Some(d.email))).Some? then Step(db, Fail(ConflictError(EmailTaken)))
      else if !OtpMatches(db.otps, d.email, d.otp) then Step(db, Fail(NotFoundError(InvalidOtp)))
      else if db.otps[d.email].expiresAt < now then
        Step(db.(otps := db.otps - {d.email}), Fail(BadRequestError(OtpExpired)))
      else
        var user := User(db.nextUserId, d.email, d.name, Some(env.passwordHash(d.password)));
        var db' := Db(db.users + [user], db.otps - {d.email}, db.tokens, db.nextUserId + 1);
        Step(db', Sent(Envelope(Registered, Credentials(d.email, d.name), 200)))
  }

  // ---------------------------------------------------------------- GenerateOtp

  /** JavaScript truthiness of a body property (`NaN` is not modelled). */
  predicate JsTruthy(v: Json)
  {
    match v
    case JString(s) => s != ""
    case JNumber(n) => n != 0.0
    case JBool(b) => b
    case JNull => false
    case JComposite => true
  }

  const OtpTtl := 5 * 60 * 1000
  const OtpPurpose := "User registration"

  /** The row the upsert writes for `email`. */
  function OtpRow(email: string, choice: nat, now: int): OtpRecord
    requires choice < OtpChoices
  {
    SixDigitCodes(choice);
    OtpRecord(email, CreateOtpNumber(OtpDigits, choice).value, OtpPurpose, now + OtpTtl)
  }

  /** GenerateOtp. Its schema check tests the (always truthy) result object,
      so it never rejects; the raw body email is used from then on. A truthy
      non-string email reaches the upsert, which Prisma refuses. */
  function GenerateOtp(env: Env, db: Db, body: Body, now: int, choice: nat, delivered: bool): (r: Step)
    requires choice < OtpChoices
    ensures "email" !in body || !JsTruthy(body["email"]) ==> r == Step(db, Fail(BadRequestError(EmailRequired)))
    ensures "email" in body && JsTruthy(body["email"]) && !body["email"].JString? ==>
              r == Step(db, Threw(PrismaThrown(PrismaValidation, None)))
    ensures "email" in body && body["email"].JString? && body["email"].str != "" ==>
              var email := body["email"].str;
              && r.db == db.(otps := db.otps[email := OtpRow(email, choice, now)])
              && (r.reply.Sent? <==> delivered)
              && (r.reply.Threw? ==> r.reply.error == PlainError(OtpDispatchFailed))
    ensures r.reply.Sent? ==> r.reply.envelope == Envelope(OtpSent, NoData, 250)
  {
    if "email" !in body || !JsTruthy(body["email"]) then Step(db, Fail(BadRequestError(EmailRequired)))
    else if !body["email"].JString? then Step(db, Threw(PrismaThrown(PrismaValidation, None)))
    else
      var email := body["email"].str;
      var db' := db.(otps := db.otps[email := OtpRow(email, choice, now)]);
      if !delivered then Step(db', Threw(PlainError(OtpDispatchFailed)))
      else Step(db', Sent(Envelope(OtpSent, NoData, 250)))
  }

  /** GenerateOtp as its schema check evidently intends: a body the schema
      rejects is refused, and the code is stored under the normalised email
      that RegisterUser looks up. */
  function GenerateOtpNormalised(env: Env, db: Db, body: Body, now: int, choice: nat, delivered: bool): (r: Step)
    requires choice < OtpChoices
    ensures GenerateOtpSchema(env.isEmail, body).None? ==> r == Step(db, Fail(BadRequestError(LoginSchemaFailed)))
    ensures var e := GenerateOtpSchema(env.isEmail, body);
            e.Some? && e.value != "" ==>
              && r.db == db.(otps := db.otps[e.value := OtpRow(e.value, choice, now)])
              && (r.reply.Sent? <==> delivered)
    ensures var e := GenerateOtpSchema(env.isEmail, body);
            e == Some("") ==> r == Step(db, Fail(BadRequestError(EmailRequired)))
    ensures r.reply.Threw? && r.db != db ==> r.reply.error == PlainError(OtpDispatchFailed)
    ensures r.reply.Sent? ==> r.reply.envelope == Envelope(OtpSent, NoData, 250)
    ensures r.db.users == db.users && r.db.tokens == db.tokens
    ensures r.db.otps != db.otps ==>
              var e := GenerateOtpSchema(env.isEmail, body);
              e.Some? && NoUpper(e.value) && IsTrimmed(e.value)
  {
    var e := GenerateOtpSchema(env.isEmail, body);
    if e.None? then Step(db, Fail(BadRequestError(LoginSchemaFailed)))
    else if e.value == "" then Step(db, Fail(BadRequestError(EmailRequired)))
    else
      var db' := db.(otps := db.otps[e.value := OtpRow(e.value, choice, now)]);
      if !delivered then Step(db', Threw(PlainError(OtpDispatchFailed)))
      else Step(db', Sent(Envelope(OtpSent, NoData, 250)))
  }

  // ---------------------------------------------------------------- ForgotPassword

  const ResetTtl := 15 * 60 * 1000

  /** The object ForgotPassword validates: `{ email, ip }`. */
  function ForgotBody(email: Option<Json>, ip: string): Body
  {
    (if email.Some? then map["email" := email.value] else map[])["ip" := JString(ip)]
  }

  /** The token table after the upsert by user id: the user's row is
      replaced in place, or a row is appended when the user has none. */
  function UpsertToken(tokens: seq<ResetToken>, row: ResetToken): (r: seq<ResetToken>)
    ensures var j := FindToken(tokens, UserIs(row.userId));
            j.Some? ==> r == tokens[j.value := row]
    ensures FindToken(tokens, UserIs(row.userId)).None? ==> r == tokens + [row]
  {
    var j := FindToken(tokens, UserIs(row.userId));
    if j.Some? then tokens[j.value := row] else tokens + [row]
  }

  /** ForgotPassword. `ip` is `req.ip || req.socket.remoteAddress ||
      'unknown'`, `bytes` the 32 random bytes. The lookup uses the raw body
      email. The reset-link e-mail's type is not one the dispatcher knows,
      so it always reports failure, which the handler ignores. */
  function ForgotPassword(env: Env, db: Db, email: Option<Json>, ip: string, now: int, bytes: seq<Byte>): (r: Step)
    requires |bytes| == 32
    ensures ForgotPasswordSchema(env.isEmail, ForgotBody(email, ip)).None? ==>
              r == Step(db, Fail(BadRequestError(RequestSchemaFailed)))
    ensures r.reply.Sent? ==> r.reply.envelope == Envelope(ResetLinkNotice, NoData, 200)
    ensures r.reply.Threw? && ForgotPasswordSchema(env.isEmail, ForgotBody(email, ip)).Some? ==>
              r == Step(db, Threw(TokenHashTaken))
    ensures ForgotPasswordSchema(env.isEmail, ForgotBody(email, ip)).Some? ==>
              var i := FindUser(db.users, EmailIs(Some(email.value.str)));
              && (i.None? || db.users[i.value].id == 0 ==> r == Step(db, Sent(Envelope(ResetLinkNotice, NoData, 200))))
              && (i.Some? && db.users[i.value].id != 0
                  && FindToken(db.tokens, HashHeldByOther(env.sha256Hex(Hex(bytes)), db.users[i.value].id)).None? ==>
                    r == Step(db.(tokens := UpsertToken(db.tokens,
                                  ResetToken(db.users[i.value].id, env.sha256Hex(Hex(bytes)), now + ResetTtl, false, ip))),
                              Sent(Envelope(ResetLinkNotice, NoData, 200))))
              && (i.Some? && db.users[i.value].id != 0
                  && FindToken(db.tokens, HashHeldByOther(env.sha256Hex(Hex(bytes)), db.users[i.value].id)).Some? ==>
                    r == Step(db, Threw(TokenHashTaken)))
    ensures r.db.users == db.users && r.db.otps == db.otps && r.db.nextUserId == db.nextUserId
    ensures r.db.tokens != db.tokens ==>
              && ForgotPasswordSchema(env.isEmail, ForgotBody(email, ip)).Some?
              && var i := FindUser(db.users, EmailIs(Some(email.value.str)));
              && i.Some? && db.users[i.value].id != 0
              && r.db.tokens == UpsertToken(db.tokens,
                   ResetToken(db.users[i.value].id, env.sha256Hex(Hex(bytes)), now + ResetTtl, false, ip))
  {
    if ForgotPasswordSchema(env.isEmail, ForgotBody(email, ip)).None? then
      Step(db, Fail(BadRequestError(RequestSchemaFailed)))
    else
      var raw := email.value.str;
      var i := FindUser(db.users, EmailIs(Some(raw)));
      if i.None? || db.users[i.value].id == 0 then Step(db, Sent(Envelope(ResetLinkNotice, NoData, 200)))
      else
        var userId := db.users[i.value].id;
        var tokenHash := env.sha256Hex(Hex(bytes));
        if FindToken(db.tokens, HashHeldByOther(tokenHash, userId)).Some? then Step(db, Threw(TokenHashTaken))
        else
          var row := ResetToken(userId, tokenHash, now + ResetTtl, false, ip);
          Step(db.(tokens := UpsertToken(db.tokens, row)), Sent(Envelope(ResetLinkNotice, NoData, 200)))
  }

  // ---------------------------------------------------------------- VerifyResetToken

  /** VerifyResetToken on the query `query`: absent, then used, then
      expired; used and expired rows are deleted. */
  function VerifyResetToken(env: Env, db: Db, query: Body, now: int): (r: Step)
    ensures VerifyResetTokenSchema(query).None? ==> r == Step(db, Fail(BadRequestError(RequestSchemaFailed)))
    ensures r.db.users == db.users && r.db.otps == db.otps && r.db.nextUserId == db.nextUserId
    ensures var t := VerifyResetTokenSchema(query);
            r.reply.Sent? <==>
              && t.Some?
              && var j := FindToken(db.tokens, HashIs(env.sha256Hex(t.value)));
                 j.Some? && !db.tokens[j.value].used && !(now > db.tokens[j.value].expiresAt)
    ensures r.reply.Sent? ==> r.db == db && r.reply.envelope == Envelope(TokenValid, TokenValidity(true), 200)
    ensures var t := VerifyResetTokenSchema(query);
            t.Some? && FindToken(db.tokens, HashIs(env.sha256Hex(t.value))).None? ==>
              r == Step(db, Fail(BadRequestError(InvalidToken)))
    ensures var t := VerifyResetTokenSchema(query);
            t.Some? ==>
              var j := FindToken(db.tokens, HashIs(env.sha256Hex(t.value)));
              j.Some? && (db.tokens[j.value].used || now > db.tokens[j.value].expiresAt) ==>
                r == Step(db.(tokens := Without(db.tokens, j.value)),
                          Fail(BadRequestError(if db.tokens[j.value].used then TokenUsed else TokenExpired)))
    ensures r.db != db ==>
              var j := FindToken(db.tokens, HashIs(env.sha256Hex(VerifyResetTokenSchema(query).value)));
              && j.Some?
              && r.db.tokens == Without(db.tokens, j.value)
              && r.reply == Fail(BadRequestError(if db.tokens[j.value].used then TokenUsed else TokenExpired))
  {
    var t := VerifyResetTokenSchema(query);
    if t.None? then Step(db, Fail(BadRequestError(RequestSchemaFailed)))
    else if t.value == "" then Step(db, Fail(BadRequestError(TokenRequired)))
    else
      var j := FindToken(db.tokens, HashIs(env.sha256Hex(t.value)));
      if j.None? then Step(db, Fail(BadRequestError(InvalidToken)))
      else if db.tokens[j.value].used then
        Step(db.(tokens := Without(db.tokens, j.value)), Fail(BadRequestError(TokenUsed)))
      else if now > db.tokens[j.value].expiresAt then
        Step(db.(tokens := Without(db.tokens, j.value)), Fail(BadRequestError(TokenExpired)))
      else Step(db, Sent(Envelope(TokenValid, TokenValidity(true), 200)))
  }

  // ---------------------------------------------------------------- ResetPassword

  /** ResetPassword: absent, used (kept), expired (deleted), owner missing
      (deleted); on success the password update and the token deletion
      happen together, as in the transaction. */
  function ResetPassword(env: Env, db: Db, body: Body, now: int): (r: Step)
    ensures ResetPasswordSchema(body).None? ==> r == Step(db, Fail(BadRequestError(ResetSchemaFailed)))
    ensures r.db.otps == db.otps && r.db.nextUserId == db.nextUserId
    ensures var p := ResetPasswordSchema(body);
            r.reply.Sent? <==>
              && p.Some?
              && var j := FindToken(db.tokens, HashIs(env.sha256Hex(p.value.token)));
              && j.Some? && !db.tokens[j.value].used && !(now > db.tokens[j.value].expiresAt)
              && FindUser(db.users, IdIs(db.tokens[j.value].userId)).Some?
    ensures r.reply.Sent? ==>
              var p := ResetPasswordSchema(body).value;
              var j := FindToken(db.tokens, HashIs(env.sha256Hex(p.token))).value;
              var k := FindUser(db.users, IdIs(db.tokens[j].userId)).value;
              && r.db.users == db.users[k := db.users[k].(password := Some(env.passwordHash(p.newPassword)))]
              && r.db.tokens == Without(db.tokens, j)
              && r.reply.envelope == Envelope(PasswordReset, NoData, 200)
    ensures r.reply.Threw? ==> r.db.users == db.users
    ensures var p := ResetPasswordSchema(body);
            p.Some? ==>
              var j := FindToken(db.tokens, HashIs(env.sha256Hex(p.value.token)));
              && (j.None? ==> r == Step(db, Fail(BadRequestError(InvalidToken))))
              && (j.Some? && db.tokens[j.value].used ==> r == Step(db, Fail(BadRequestError(TokenUsed))))
              && (j.Some? && !db.tokens[j.value].used && now > db.tokens[j.value].expiresAt ==>
                    r == Step(db.(tokens := Without(db.tokens, j.value)), Fail(BadRequestError(TokenExpired))))
              && (j.Some? && !db.tokens[j.value].used && !(now > db.tokens[j.value].expiresAt)
                  && FindUser(db.users, IdIs(db.tokens[j.value].userId)).None? ==>
                    r == Step(db.(tokens := Without(db.tokens, j.value)), Fail(BadRequestError(UserMissing))))
    ensures r.db.tokens != db.tokens ==>
              var j := FindToken(db.tokens, HashIs(env.sha256Hex(ResetPasswordSchema(body).value.token)));
              j.Some? && !db.tokens[j.value].used && r.db.tokens == Without(db.tokens, j.value)
  {
    var p := ResetPasswordSchema(body);
    if p.None? then Step(db, Fail(BadRequestError(ResetSchemaFailed)))
    else
      var d := p.value;
      if d.newPassword != d.confirmPassword then Step(db, Fail(BadRequestError(PasswordsDiffer)))
      else
        var j := FindToken(db.tokens, HashIs(env.sha256Hex(d.token)));
        if j.None? then Step(db, Fail(BadRequestError(InvalidToken)))
        else
          var row := db.tokens[j.value];
          if row.used then Step(db, Fail(BadRequestError(TokenUsed)))
          else if now > row.expiresAt then
            Step(db.(tokens := Without(db.tokens, j.value)), Fail(BadRequestError(TokenExpired)))
          else
            var k := FindUser(db.users, IdIs(row.userId));
            if k.None? then
              Step(db.(tokens := Without(db.tokens, j.value)), Fail(BadRequestError(UserMissing)))
            else
              var user := db.users[k.value].(password := Some(env.passwordHash(d.newPassword)));
              Step(db.(users := db.users[k.value := user], tokens := Without(db.tokens, j.value)),
                   Sent(Envelope(PasswordReset, NoData, 200)))
  }
}

=== FILE: auth_properties.dfy ===
/** What the handlers of src/controller/auth.controller.ts guarantee across
    calls: the database constraints and the "no token is ever used" fact
    survive every handler, a code or a reset link is consumed once, the
    issue-then-consume round trips succeed, and the cases where they do not. */
module AuthProperties {
  import opened Text
  import opened AppErrors
  import opened ErrorClassification
  import opened Schemas
  import opened AuthFlows

  /** One call of a handler, with the inputs the model takes as parameters. */
  datatype Call =
    | Login(body: Body)
    | Register(body: Body, now: int)
    | IssueOtp(body: Body, now: int, choice: nat, delivered: bool)
    | Forgot(email: Option<Json>, ip: string, now: int, bytes: seq<Byte>)
    | Verify(query: Body, now: int)
    | Reset(body: Body, now: int)

  /** The random inputs are in their ranges: a choice among the six-digit
      codes and 32 random bytes. */
  predicate WellFormed(c: Call)
  {
    (c.IssueOtp? ==> c.choice < OtpChoices) && (c.Forgot? ==> |c.bytes| == 32)
  }

  function Handle(env: Env, db: Db, c: Call): Step
    requires WellFormed(c)
  {
    match c
    case Login(body) => LoginUser(env, db, body)
    case Register(body, now) => RegisterUser(env, db, body, now)
    case IssueOtp(body, now, choice, delivered) => GenerateOtp(env, db, body, now, choice, delivered)
    case Forgot(email, ip, now, bytes) => ForgotPassword(env, db, email, ip, now, bytes)
    case Verify(query, now) => VerifyResetToken(env, db, query, now)
    case Reset(body, now) => ResetPassword(env, db, body, now)
  }

  /** The tables after a sequence of calls. */
  function RunCalls(env: Env, db: Db, calls: seq<Call>): Db
    requires forall i :: 0 <= i < |calls| ==> WellFormed(calls[i])
    decreases |calls|
  {
    if calls == [] then db else RunCalls(env, Handle(env, db, calls[0]).db, calls[1..])
  }

  // ---------------------------------------------------------------- the constraints are kept

  lemma WithoutKeepsTokensDistinct(tokens: seq<ResetToken>, j: nat)
    requires j < |tokens| && TokensDistinct(tokens)
    ensures TokensDistinct(Without(tokens, j))
  {
    var r := Without(tokens, j);
    forall a, b | 0 <= a < b < |r|
      ensures r[a].tokenHash != r[b].tokenHash && r[a].userId != r[b].userId
    {
      var a' := if a < j then a else a + 1;
      var b' := if b < j then b else b + 1;
      assert r[a] == tokens[a'] && r[b] == tokens[b'];
    }
  }

  /** Appending a user with a fresh email and the next id keeps the user
      constraints. */
  lemma AppendUserKeepsValid(users: seq<User>, u: User, nextUserId: nat)
    requires UsersDistinct(users) && IdsIssued(users, nextUserId)
    requires u.id == nextUserId >= 1 && FindUser(users, EmailIs(Some(u.email))).None?
    ensures UsersDistinct(users + [u]) && IdsIssued(users + [u], nextUserId + 1)
  {
    var all := users + [u];
    forall i, j | 0 <= i < j < |all|
      ensures all[i].email != all[j].email && all[i].id != all[j].id
    {
      if j == |users| {
        assert !UserMatches(users[i], EmailIs(Some(u.email)));
      }
    }
  }

  lemma RegisterKeepsValid(env: Env, db: Db, body: Body, now: int)
    requires Valid(db)
    ensures Valid(RegisterUser(env, db, body, now).db)
  {
    var r := RegisterUser(env, db, body, now);
    if r.reply.Threw? {
      assert r.db.users == db.users && r.db.nextUserId == db.nextUserId && r.db.tokens == db.tokens;
      assert OtpsKeyed(r.db.otps);
    } else {
      var d := SignupSchema(env.isEmail, env.isUrl, body).value;
      var u := User(db.nextUserId, d.email, d.name, Some(env.passwordHash(d.password)));
      AppendUserKeepsValid(db.users, u, db.nextUserId);
    }
  }

  /** The upsert stores each code under the email it was issued for, as
      written and as corrected alike. */
  lemma GenerateOtpKeepsValid(env: Env, db: Db, body: Body, now: int, choice: nat, delivered: bool)
    requires Valid(db) && choice < OtpChoices
    ensures Valid(GenerateOtp(env, db, body, now, choice, delivered).db)
    ensures Valid(GenerateOtpNormalised(env, db, body, now, choice, delivered).db)
  {
  }

  /** The upsert for a user keeps both uniqueness constraints when no other
      user's row holds the new hash. */
  lemma UpsertKeepsTokensDistinct(tokens: seq<ResetToken>, row: ResetToken)
    requires TokensDistinct(tokens)
    requires FindToken(tokens, HashHeldByOther(row.tokenHash, row.userId)).None?
    ensures TokensDistinct(UpsertToken(tokens, row))
  {
    var r := UpsertToken(tokens, row);
    var j := FindToken(tokens, UserIs(row.userId));
    forall a, b | 0 <= a < b < |r|
      ensures r[a].tokenHash != r[b].tokenHash && r[a].userId != r[b].userId
    {
      if j.Some? {
        if a == j.value {
          assert !TokenMatches(tokens[b], HashHeldByOther(row.tokenHash, row.userId));
        } else if b == j.value {
          assert !TokenMatches(tokens[a], HashHeldByOther(row.tokenHash, row.userId));
        }
      } else if b == |tokens| {
        assert !TokenMatches(tokens[a], UserIs(row.userId));
        assert !TokenMatches(tokens[a], HashHeldByOther(row.tokenHash, row.userId));
      }
    }
  }

  lemma ForgotKeepsValid(env: Env, db: Db, email: Option<Json>, ip: string, now: int, bytes: seq<Byte>)
    requires Valid(db) && |bytes| == 32
    ensures Valid(ForgotPassword(env, db, email, ip, now, bytes).db)
  {
    var r := ForgotPassword(env, db, email, ip, now, bytes);
    if r.db.tokens != db.tokens {
      var i := FindUser(db.users, EmailIs(Some(email.value.str))).value;
      var row := ResetToken(db.users[i].id, env.sha256Hex(Hex(bytes)), now + ResetTtl, false, ip);
      UpsertKeepsTokensDistinct(db.tokens, row);
    }
  }

  lemma VerifyKeepsValid(env: Env, db: Db, query: Body, now: int)
    requires Valid(db)
    ensures Valid(VerifyResetToken(env, db, query, now).db)
  {
    var r := VerifyResetToken(env, db, query, now);
    if r.db != db {
      var j := FindToken(db.tokens, HashIs(env.sha256Hex(VerifyResetTokenSchema(query).value)));
      WithoutKeepsTokensDistinct(db.tokens, j.value);
    }
  }

  lemma ResetKeepsValid(env: Env, db: Db, body: Body, now: int)
    requires Valid(db)
    ensures Valid(ResetPassword(env, db, body, now).db)
  {
    var r := ResetPassword(env, db, body, now);
    if r.db.tokens != db.tokens {
      var j := FindToken(db.tokens, HashIs(env.sha256Hex(ResetPasswordSchema(body).value.token)));
      WithoutKeepsTokensDistinct(db.tokens, j.value);
    }
    if r.reply.Sent? {
      var users := r.db.users;
      assert forall i :: 0 <= i < |users| ==> users[i].email == db.users[i].email && users[i].id == db.users[i].id;
    }
  }

  /** Every handler keeps the database constraints. */
  lemma HandleKeepsValid(env: Env, db: Db, c: Call)
    requires WellFormed(c) && Valid(db)
    ensures Valid(Handle(env, db, c).db)
  {
    match c
    case Login(body) =>
    case Register(body, now) => RegisterKeepsValid(env, db, body, now);
    case IssueOtp(body, now, choice, delivered) => GenerateOtpKeepsValid(env, db, body, now, choice, delivered);
    case Forgot(email, ip, now, bytes) => ForgotKeepsValid(env, db, email, ip, now, bytes);
    case Verify(query, now) => VerifyKeepsValid(env, db, query, now);
    case Reset(body, now) => ResetKeepsValid(env, db, body, now);
  }

  /** Both upsert branches write `used = false`. */
  lemma ForgotKeepsNeverUsed(env: Env, db: Db, email: Option<Json>, ip: string, now: int, bytes: seq<Byte>)
    requires NeverUsed(db) && |bytes| == 32
    ensures NeverUsed(ForgotPassword(env, db, email, ip, now, bytes).db)
  {
    var r := ForgotPassword(env, db, email, ip, now, bytes);
    if r.db.tokens != db.tokens {
      var i := FindUser(db.users, EmailIs(Some(email.value.str))).value;
      var row := ResetToken(db.users[i].id, env.sha256Hex(Hex(bytes)), now + ResetTtl, false, ip);
      assert forall k :: 0 <= k < |r.db.tokens| ==> r.db.tokens[k] == row || r.db.tokens[k] in db.tokens;
    }
  }

  /** Verification only ever deletes a row. */
  lemma VerifyKeepsNeverUsed(env: Env, db: Db, query: Body, now: int)
    requires NeverUsed(db)
    ensures NeverUsed(VerifyResetToken(env, db, query, now).db)
  {
    var r := VerifyResetToken(env, db, query, now);
    if r.db != db {
      var j := FindToken(db.tokens, HashIs(env.sha256Hex(VerifyResetTokenSchema(query).value)));
      assert r.db.tokens == Without(db.tokens, j.value);
    }
  }

  /** A reset only ever deletes a row. */
  lemma ResetKeepsNeverUsed(env: Env, db: Db, body: Body, now: int)
    requires NeverUsed(db)
    ensures NeverUsed(ResetPassword(env, db, body, now).db)
  {
    var r := ResetPassword(env, db, body, now);
    if r.db.tokens != db.tokens {
      var j := FindToken(db.tokens, HashIs(env.sha256Hex(ResetPasswordSchema(body).value.token)));
      assert r.db.tokens == Without(db.tokens, j.value);
    }
  }

  /** Nothing else writes the flag, so no handler ever stores a used token. */
  lemma HandleKeepsNeverUsed(env: Env, db: Db, c: Call)
    requires WellFormed(c) && NeverUsed(db)
    ensures NeverUsed(Handle(env, db, c).db)
  {
    match c
    case Login(body) =>
    case Register(body, now) =>
    case IssueOtp(body, now, choice, delivered) =>
    case Forgot(email, ip, now, bytes) => ForgotKeepsNeverUsed(env, db, email, ip, now, bytes);
    case Verify(query, now) => VerifyKeepsNeverUsed(env, db, query, now);
    case Reset(body, now) => ResetKeepsNeverUsed(env, db, body, now);
  }

  /** From an empty database, any sequence of calls leaves the constraints
      in force and no token marked used. */
  lemma {:induction false} RunKeepsInvariants(env: Env, db: Db, calls: seq<Call>)
    requires forall i :: 0 <= i < |calls| ==> WellFormed(calls[i])
    requires Valid(db) && NeverUsed(db)
    ensures Valid(RunCalls(env, db, calls)) && NeverUsed(RunCalls(env, db, calls))
    decreases |calls|
  {
    if calls != [] {
      HandleKeepsValid(env, db, calls[0]);
      HandleKeepsNeverUsed(env, db, calls[0]);
      RunKeepsInvariants(env, Handle(env, db, calls[0]).db, calls[1..]);
    }
  }

  lemma EmptyDbInvariants()
    ensures Valid(EmptyDb) && NeverUsed(EmptyDb)
  {
  }

  /** With no token ever used, neither handler can reply that the reset
      link has already been used: those branches are dead. */
  lemma UsedBranchesUnreachable(env: Env, db: Db, query: Body, body: Body, now: int)
    requires NeverUsed(db)
    ensures VerifyResetToken(env, db, query, now).reply != Fail(BadRequestError(TokenUsed))
    ensures ResetPassword(env, db, body, now).reply != Fail(BadRequestError(TokenUsed))
  {
  }

  /** Ids start at 1, so ForgotPassword's `!existUser.id` test never fires. */
  lemma ZeroIdUnreachable(db: Db, email: string)
    requires Valid(db)
    requires FindUser(db.users, EmailIs(Some(email))).Some?
    ensures db.users[FindUser(db.users, EmailIs(Some(email))).value].id != 0
  {
  }

  // ---------------------------------------------------------------- login

  /** A login without an email filters nothing, so the password is checked
      against the first user in the table, whatever username was given. */
  lemma UsernameLoginChecksFirstUser(env: Env, db: Db, body: Body)
    requires LoginSchema(env.isEmail, body).Some? && "email" !in body && |db.users| > 0
    ensures LoginUser(env, db, body).reply.Sent? <==> PasswordMatches(env, db.users[0], body["password"].str)
    ensures LoginUser(env, db, body).reply.Sent? ==>
              LoginUser(env, db, body).reply.envelope.data == Credentials(db.users[0].name, db.users[0].name)
  {
    assert LoginFilter(body) == None;
    assert UserMatches(db.users[0], EmailIs(None));
  }

  /** As the error class is written, the login failure reaches the client
      as a generic internal error, not as the NotFound it was raised as. */
  lemma LoginFailureBecomesInternal(production: bool)
    ensures Classify(Raise(NotFoundError(InvalidLogin)), production)
         == Converted(InternalServerError(if production then Some("An unexpected error occurred") else Some(InvalidLogin)))
  {
    FirstCharAbsent(InvalidLogin, "Environment variable not found");
    FirstCharAbsent(InvalidLogin, "Can't reach database server");
    OwnErrorsNotForwarded(NotFoundError(InvalidLogin), production);
  }

  // ---------------------------------------------------------------- OTP lifecycle

  /** The code of an issued row: the choice shifted into the six-digit range. */
  lemma OtpRowCode(email: string, choice: nat, now: int)
    requires choice < OtpChoices
    ensures OtpRow(email, choice, now).otp == 100000 + choice
    ensures OtpRow(email, choice, now).expiresAt == now + 300000
  {
    SixDigitCodes(choice);
    assert Pow10(5) == 100000;
  }

  /** Issuing a code for an already normalised email and registering with
      it inside five minutes creates the user and consumes the code. */
  lemma IssueThenRegister(env: Env, db: Db, e: string, t0: int, choice: nat, delivered: bool, body: Body, t1: int)
    requires choice < OtpChoices && e != ""
    requires var p := SignupSchema(env.isEmail, env.isUrl, body);
             p.Some? && p.value.email == e && p.value.otp == OtpRow(e, choice, t0).otp
    requires FindUser(db.users, EmailIs(Some(e))).None?
    requires t1 <= t0 + OtpTtl
    ensures var s1 := GenerateOtp(env, db, map["email" := JString(e)], t0, choice, delivered);
            var s2 := RegisterUser(env, s1.db, body, t1);
            var d := SignupSchema(env.isEmail, env.isUrl, body).value;
            && s2.reply == Sent(Envelope(Registered, Credentials(e, d.name), 200))
            && s2.db.users == db.users + [User(db.nextUserId, e, d.name, Some(env.passwordHash(d.password)))]
            && e !in s2.db.otps
  {
    var s1 := GenerateOtp(env, db, map["email" := JString(e)], t0, choice, delivered);
    assert s1.db.otps[e] == OtpRow(e, choice, t0);
  }

  /** A code registers at most once: the same sign-up again meets the new
      user and is refused as a conflict, and the code is gone. */
  lemma OtpRegistersOnce(env: Env, db: Db, body: Body, t1: int, t2: int)
    requires RegisterUser(env, db, body, t1).reply.Sent?
    ensures var s := RegisterUser(env, db, body, t1);
            && SignupSchema(env.isEmail, env.isUrl, body).value.email !in s.db.otps
            && RegisterUser(env, s.db, body, t2) == Step(s.db, Fail(ConflictError(EmailTaken)))
  {
    var s := RegisterUser(env, db, body, t1);
    var d := SignupSchema(env.isEmail, env.isUrl, body).value;
    assert UserMatches(s.db.users[|db.users|], EmailIs(Some(d.email)));
  }

  /** Issuing again replaces the earlier code: after a second, different
      code is issued for the same address, its row holds only the second
      code, and registering with the first fails as 'Invalid OTP'. (When the
      raw address is not already normalised, no row under the normalised
      one is needed for the sign-up to fail.) */
  lemma ReissueInvalidatesEarlierCode(
    env: Env, db: Db, raw: string, t0: int, c1: nat, d1: bool, t1: int, c2: nat, d2: bool, body: Body, t2: int)
    requires c1 < OtpChoices && c2 < OtpChoices && c1 != c2 && raw != ""
    requires var p := SignupSchema(env.isEmail, env.isUrl, body);
             p.Some? && p.value.email == NormaliseEmail(raw) && p.value.otp == OtpRow(raw, c1, t0).otp
    requires NormaliseEmail(raw) == raw || NormaliseEmail(raw) !in db.otps
    requires FindUser(db.users, EmailIs(Some(NormaliseEmail(raw)))).None?
    ensures var s1 := GenerateOtp(env, db, map["email" := JString(raw)], t0, c1, d1);
            var s2 := GenerateOtp(env, s1.db, map["email" := JString(raw)], t1, c2, d2);
            && s2.db.otps[raw] == OtpRow(raw, c2, t1)
            && RegisterUser(env, s2.db, body, t2) == Step(s2.db, Fail(NotFoundError(InvalidOtp)))
  {
    OtpRowCode(raw, c1, t0);
    OtpRowCode(raw, c2, t1);
  }

  /** GenerateOtp stores the code under the raw body email, but
      RegisterUser looks it up under the normalised one: for an address with
      an upper-case letter the two never meet, and registration fails. */
  lemma MixedCaseEmailNeverRegisters(
    env: Env, db: Db, raw: string, t0: int, choice: nat, delivered: bool, body: Body, t1: int)
    requires choice < OtpChoices && !NoUpper(raw)
    requires var p := SignupSchema(env.isEmail, env.isUrl, body);
             p.Some? && p.value.email == NormaliseEmail(raw)
    requires NormaliseEmail(raw) !in db.otps && FindUser(db.users, EmailIs(Some(NormaliseEmail(raw)))).None?
    ensures var s1 := GenerateOtp(env, db, map["email" := JString(raw)], t0, choice, delivered);
            && raw in s1.db.otps
            && RegisterUser(env, s1.db, body, t1) == Step(s1.db, Fail(NotFoundError(InvalidOtp)))
  {
    assert NormaliseEmail(raw) != raw;
  }

  /** The same round trip with GenerateOtp storing the normalised email:
      any accepted address, whatever its case or surrounding spaces,
      registers with the code it was sent. */
  lemma NormalisedIssueThenRegister(
    env: Env, db: Db, raw: string, t0: int, choice: nat, delivered: bool, body: Body, t1: int)
    requires choice < OtpChoices && env.isEmail(raw) && NormaliseEmail(raw) != ""
    requires var p := SignupSchema(env.isEmail, env.isUrl, body);
             p.Some? && p.value.email == NormaliseEmail(raw) && p.value.otp == OtpRow(NormaliseEmail(raw), choice, t0).otp
    requires FindUser(db.users, EmailIs(Some(NormaliseEmail(raw)))).None?
    requires t1 <= t0 + OtpTtl
    ensures var s1 := GenerateOtpNormalised(env, db, map["email" := JString(raw)], t0, choice, delivered);
            var s2 := RegisterUser(env, s1.db, body, t1);
            && s2.reply.Sent?
            && s2.db.users == db.users + [User(db.nextUserId, NormaliseEmail(raw), SignupSchema(env.isEmail, env.isUrl, body).value.name,
                                               Some(env.passwordHash(SignupSchema(env.isEmail, env.isUrl, body).value.password)))]
  {
    var e := NormaliseEmail(raw);
    var s1 := GenerateOtpNormalised(env, db, map["email" := JString(raw)], t0, choice, delivered);
    assert GenerateOtpSchema(env.isEmail, map["email" := JString(raw)]) == Some(e);
    assert s1.db.otps[e] == OtpRow(e, choice, t0);
  }

  // ---------------------------------------------------------------- reset-token lifecycle

  /** Where the upserted row lands. */
  lemma UpsertPlacesRow(tokens: seq<ResetToken>, row: ResetToken) returns (k: nat)
    ensures var r := UpsertToken(tokens, row);
            k < |r| && r[k] == row
    ensures forall t :: t in tokens && t.userId != row.userId ==> t in UpsertToken(tokens, row)
  {
    var j := FindToken(tokens, UserIs(row.userId));
    var r := UpsertToken(tokens, row);
    if j.Some? {
      k := j.value;
      forall t | t in tokens && t.userId != row.userId
        ensures t in r
      {
        var x :| 0 <= x < |tokens| && tokens[x] == t;
        assert r[x] == t;
      }
    } else {
      k := |tokens|;
      assert forall x :: 0 <= x < |tokens| ==> r[x] == tokens[x];
    }
  }

  /** When the email belongs to a user (and no other user's row holds the
      new hash), ForgotPassword leaves exactly one row for that user: the
      new hash, unused, expiring in fifteen minutes. Other users' rows stay. */
  lemma ForgotIssuesOneToken(env: Env, db: Db, e: string, ip: string, t0: int, bytes: seq<Byte>)
    requires Valid(db) && |bytes| == 32 && env.isEmail(e)
    requires FindUser(db.users, EmailIs(Some(e))).Some?
    requires var uid := db.users[FindUser(db.users, EmailIs(Some(e))).value].id;
             FindToken(db.tokens, HashHeldByOther(env.sha256Hex(Hex(bytes)), uid)).None?
    ensures var uid := db.users[FindUser(db.users, EmailIs(Some(e))).value].id;
            var row := ResetToken(uid, env.sha256Hex(Hex(bytes)), t0 + 900000, false, ip);
            var tokens := ForgotPassword(env, db, Some(JString(e)), ip, t0, bytes).db.tokens;
            && row in tokens
            && (forall k :: 0 <= k < |tokens| && tokens[k].userId == uid ==> tokens[k] == row)
            && (forall t :: t in db.tokens && t.userId != uid ==> t in tokens)
  {
    var uid := db.users[FindUser(db.users, EmailIs(Some(e))).value].id;
    var row := ResetToken(uid, env.sha256Hex(Hex(bytes)), t0 + ResetTtl, false, ip);
    var s := ForgotPassword(env, db, Some(JString(e)), ip, t0, bytes);
    assert s.db.tokens == UpsertToken(db.tokens, row);
    var k := UpsertPlacesRow(db.tokens, row);
    ForgotKeepsValid(env, db, Some(JString(e)), ip, t0, bytes);
    assert s.db.tokens[k] == row;
  }

  /** The reply does not reveal whether the email is registered: for a
      well-formed request, a database where the email belongs to a user
      (whose new hash collides with no other user's row) and one where it
      belongs to nobody both answer with the same notice. */
  lemma ForgotRevealsNothing(env: Env, db1: Db, db2: Db, email: Option<Json>, ip: string, t1: int, t2: int, b1: seq<Byte>, b2: seq<Byte>)
    requires |b1| == 32 && |b2| == 32 && Valid(db1)
    requires ForgotPasswordSchema(env.isEmail, ForgotBody(email, ip)).Some?
    requires FindUser(db1.users, EmailIs(Some(email.value.str))).Some?
    requires var uid := db1.users[FindUser(db1.users, EmailIs(Some(email.value.str))).value].id;
             FindToken(db1.tokens, HashHeldByOther(env.sha256Hex(Hex(b1)), uid)).None?
    requires FindUser(db2.users, EmailIs(Some(email.value.str))).None?
    ensures ForgotPassword(env, db1, email, ip, t1, b1).reply == Sent(Envelope(ResetLinkNotice, NoData, 200))
    ensures ForgotPassword(env, db2, email, ip, t2, b2).reply == Sent(Envelope(ResetLinkNotice, NoData, 200))
  {
    ZeroIdUnreachable(db1, email.value.str);
  }

  /** A link sent by ForgotPassword verifies as valid for fifteen minutes. */
  lemma ForgotThenVerify(env: Env, db: Db, e: string, ip: string, t0: int, bytes: seq<Byte>, t1: int)
    requires Valid(db) && |bytes| == 32 && env.isEmail(e)
    requires FindUser(db.users, EmailIs(Some(e))).Some?
    requires var uid := db.users[FindUser(db.users, EmailIs(Some(e))).value].id;
             FindToken(db.tokens, HashHeldByOther(env.sha256Hex(Hex(bytes)), uid)).None?
    requires t1 <= t0 + ResetTtl
    ensures var s := ForgotPassword(env, db, Some(JString(e)), ip, t0, bytes);
            VerifyResetToken(env, s.db, map["token" := JString(Hex(bytes))], t1)
              == Step(s.db, Sent(Envelope(TokenValid, TokenValidity(true), 200)))
  {
    var uid := db.users[FindUser(db.users, EmailIs(Some(e))).value].id;
    var h := env.sha256Hex(Hex(bytes));
    var row := ResetToken(uid, h, t0 + ResetTtl, false, ip);
    var s := ForgotPassword(env, db, Some(JString(e)), ip, t0, bytes);
    assert s.db.tokens == UpsertToken(db.tokens, row);
    var k := UpsertPlacesRow(db.tokens, row);
    ForgotKeepsValid(env, db, Some(JString(e)), ip, t0, bytes);
    IssuedTokenPassesSchema(bytes);
    var query := map["token" := JString(Hex(bytes))];
    assert VerifyResetTokenSchema(query) == Some(Hex(bytes));
    var m := FindToken(s.db.tokens, HashIs(h));
    assert TokenMatches(s.db.tokens[k], HashIs(h));
    assert m.Some?;
  }

  /** A reset consumes the link: afterwards neither a verification nor a
      second reset with the same token finds it. */
  lemma ResetConsumesToken(env: Env, db: Db, body: Body, t0: int, t1: int, body2: Body)
    requires Valid(db)
    requires ResetPassword(env, db, body, t0).reply.Sent?
    requires ResetPasswordSchema(body2).Some?
    requires ResetPasswordSchema(body2).value.token == ResetPasswordSchema(body).value.token
    ensures var s := ResetPassword(env, db, body, t0);
            var token := ResetPasswordSchema(body).value.token;
            && VerifyResetToken(env, s.db, map["token" := JString(token)], t1) == Step(s.db, Fail(BadRequestError(InvalidToken)))
            && ResetPassword(env, s.db, body2, t1) == Step(s.db, Fail(BadRequestError(InvalidToken)))
  {
    var s := ResetPassword(env, db, body, t0);
    var token := ResetPasswordSchema(body).value.token;
    var h := env.sha256Hex(token);
    var j := FindToken(db.tokens, HashIs(h)).value;
    assert s.db.tokens == Without(db.tokens, j);
    assert VerifyResetTokenSchema(map["token" := JString(token)]) == Some(token);
    forall k | 0 <= k < |s.db.tokens|
      ensures !TokenMatches(s.db.tokens[k], HashIs(h))
    {
      var k' := if k < j then k else k + 1;
      assert s.db.tokens[k] == db.tokens[k'];
    }
  }

  /** After a reset, the owner logs in with the new password. */
  lemma ResetThenLogin(env: Env, db: Db, body: Body, t0: int, email: string)
    requires Valid(db)
    requires ResetPassword(env, db, body, t0).reply.Sent?
    requires var p := ResetPasswordSchema(body).value;
             var j := FindToken(db.tokens, HashIs(env.sha256Hex(p.token))).value;
             var k := FindUser(db.users, IdIs(db.tokens[j].userId)).value;
             db.users[k].email == email
    requires var p := ResetPasswordSchema(body).value;
             && env.passwordHash(p.newPassword) != ""
             && LoginSchema(env.isEmail, map["email" := JString(email), "password" := JString(p.newPassword)]).Some?
    ensures var p := ResetPasswordSchema(body).value;
            var s := ResetPassword(env, db, body, t0);
            LoginUser(env, s.db, map["email" := JString(email), "password" := JString(p.newPassword)]).reply.Sent?
  {
    var p := ResetPasswordSchema(body).value;
    var s := ResetPassword(env, db, body, t0);
    var j := FindToken(db.tokens, HashIs(env.sha256Hex(p.token))).value;
    var k := FindUser(db.users, IdIs(db.tokens[j].userId)).value;
    var login := map["email" := JString(email), "password" := JString(p.newPassword)];
    assert LoginFilter(login) == Some(email);
    var i := FindUser(s.db.users, EmailIs(Some(email)));
    assert UserMatches(s.db.users[k], EmailIs(Some(email)));
    assert i.Some?;
  }
}

=== FILE: auth_service.dfy ===
/** The handlers of src/controller/auth.controller.ts as operations on the
    user, OTP and reset-token tables, held in place and updated step by step
    as the handlers' Prisma calls do. Each operation is proved to do what
    the matching transition of `AuthFlows` describes, so the lifecycle
    properties proved there hold of it, and each keeps the table
    constraints. */
module AuthService {
  import opened Text
  import opened AppErrors
  import opened ErrorClassification
  import opened Schemas
  import opened AuthFlows
  import opened AuthProperties

  class AuthController {
    const env: Env
    var users: seq<User>
    var otps: map<string, OtpRecord>
    var tokens: seq<ResetToken>
    var nextUserId: nat

    function Tables(): Db
      reads this
    {
      Db(users, otps, tokens, nextUserId)
    }

    /** The table constraints, and no token marked used. */
    predicate Valid()
      reads this
    {
      AuthFlows.Valid(Tables()) && NeverUsed(Tables())
    }

    constructor (env: Env)
      ensures this.env == env && Tables() == EmptyDb && Valid()
    {
      this.env := env;
      users := [];
      otps := map[];
      tokens := [];
      nextUserId := 1;
    }

    /** A scan of the user table for the first row matching `f`. */
    method FindUserIndex(f: UserFilter) returns (i: Option<nat>)
      ensures i == FindUser(users, f)
    {
      var k := 0;
      while k < |users|
        invariant 0 <= k <= |users|
        invariant FindUserFrom(users, f, k) == FindUserFrom(users, f, 0)
      {
        if UserMatches(users[k], f) {
          return Some(k);
        }
        k := k + 1;
      }
      return None;
    }

    /** A scan of the token table for the first row matching `f`. */
    method FindTokenIndex(f: TokenFilter) returns (i: Option<nat>)
      ensures i == FindToken(tokens, f)
    {
      var k := 0;
      while k < |tokens|
        invariant 0 <= k <= |tokens|
        invariant FindTokenFrom(tokens, f, k) == FindTokenFrom(tokens, f, 0)
      {
        if TokenMatches(tokens[k], f) {
          return Some(k);
        }
        k := k + 1;
      }
      return None;
    }

    /** LoginUser: reads the tables and changes nothing. */
    method LoginUser(body: Body) returns (reply: Reply)
      ensures reply == AuthFlows.LoginUser(env, Tables(), body).reply
    {
      if LoginSchema(env.isEmail, body).None? {
        return Fail(BadRequestError(LoginSchemaFailed));
      }
      var password := body["password"].str;
      var i := FindUserIndex(EmailIs(LoginFilter(body)));
      if i.None? || !Truthy(users[i.value].password) {
        return Fail(NotFoundError(InvalidLogin));
      }
      var user := users[i.value];
      var isMatch := env.passwordHash(password) == user.password.value;
      if !isMatch {
        return Fail(NotFoundError(InvalidLogin));
      }
      return Sent(Envelope(LoginSucceeded, Credentials(user.name, user.name), 200));
    }

    method RegisterUser(body: Body, now: int) returns (reply: Reply)
      requires Valid()
      modifies this
      ensures Valid()
      ensures var s := AuthFlows.RegisterUser(env, old(Tables()), body, now);
              Tables() == s.db && reply == s.reply
    {
      RegisterKeepsValid(env, Tables(), body, now);
      HandleKeepsNeverUsed(env, Tables(), Register(body, now));
      var result := SignupSchema(env.isEmail, env.isUrl, body);
      if result.None? {
        return Fail(BadRequestError(SignupSchemaFailed));
      }
      var data := result.value;
      var existUser := FindUserIndex(EmailIs(Some(data.email)));
      if existUser.Some? {
        return Fail(ConflictError(EmailTaken));
      }
      if data.email !in otps || otps[data.email].otp != data.otp {
        return Fail(NotFoundError(InvalidOtp));
      }
      if otps[data.email].expiresAt < now {
        otps := otps - {data.email};
        return Fail(BadRequestError(OtpExpired));
      }
      var hashedPassword := env.passwordHash(data.password);
      users := users + [User(nextUserId, data.email, data.name, Some(hashedPassword))];
      nextUserId := nextUserId + 1;
      otps := otps - {data.email};
      return Sent(Envelope(Registered, Credentials(data.email, data.name), 200));
    }

    /** GenerateOtp. The schema result is an object, so `!result` never
        holds; the code is stored under the raw body email. */
    method GenerateOtp(body: Body, now: int, choice: nat, delivered: bool) returns (reply: Reply)
      requires Valid() && choice < OtpChoices
      modifies this
      ensures Valid()
      ensures var s := AuthFlows.GenerateOtp(env, old(Tables()), body, now, choice, delivered);
              Tables() == s.db && reply == s.reply
    {
      GenerateOtpKeepsValid(env, Tables(), body, now, choice, delivered);
      HandleKeepsNeverUsed(env, Tables(), IssueOtp(body, now, choice, delivered));
      if "email" !in body || !JsTruthy(body["email"]) {
        return Fail(BadRequestError(EmailRequired));
      }
      if !body["email"].JString? {
        // Prisma refuses a non-string `where.email`
        return Threw(PrismaThrown(PrismaValidation, None));
      }
      var email := body["email"].str;
      SixDigitCodes(choice);
      var code := CreateOtpNumber(OtpDigits, choice).value;
      var expiresAt := now + OtpTtl;
      otps := otps[email := OtpRecord(email, code, OtpPurpose, expiresAt)];
      if !delivered {
        return Threw(PlainError(OtpDispatchFailed));
      }
      return Sent(Envelope(OtpSent, NoData, 250));
    }

    method ForgotPassword(email: Option<Json>, ip: string, now: int, bytes: seq<Byte>) returns (reply: Reply)
      requires Valid() && |bytes| == 32
      modifies this
      ensures Valid()
      ensures var s := AuthFlows.ForgotPassword(env, old(Tables()), email, ip, now, bytes);
              Tables() == s.db && reply == s.reply
    {
      ForgotKeepsValid(env, Tables(), email, ip, now, bytes);
      HandleKeepsNeverUsed(env, Tables(), Forgot(email, ip, now, bytes));
      if ForgotPasswordSchema(env.isEmail, ForgotBody(email, ip)).None? {
        return Fail(BadRequestError(RequestSchemaFailed));
      }
      var existUser := FindUserIndex(EmailIs(Some(email.value.str)));
      if existUser.None? || users[existUser.value].id == 0 {
        return Sent(Envelope(ResetLinkNotice, NoData, 200));
      }
      var userId := users[existUser.value].id;
      var token := Hex(bytes);
      var tokenHash := env.sha256Hex(token);
      var expiresAt := now + ResetTtl;
      var taken := FindTokenIndex(HashHeldByOther(tokenHash, userId));
      if taken.Some? {
        return Threw(TokenHashTaken);
      }
      var row := ResetToken(userId, tokenHash, expiresAt, false, ip);
      var current := FindTokenIndex(UserIs(userId));
      if current.Some? {
        tokens := tokens[current.value := row];
      } else {
        tokens := tokens + [row];
      }
      return Sent(Envelope(ResetLinkNotice, NoData, 200));
    }

    method VerifyResetToken(query: Body, now: int) returns (reply: Reply)
      requires Valid()
      modifies this
      ensures Valid()
      ensures var s := AuthFlows.VerifyResetToken(env, old(Tables()), query, now);
              Tables() == s.db && reply == s.reply
    {
      VerifyKeepsValid(env, Tables(), query, now);
      HandleKeepsNeverUsed(env, Tables(), Verify(query, now));
      var result := VerifyResetTokenSchema(query);
      if result.None? {
        return Fail(BadRequestError(RequestSchemaFailed));
      }
      var token := result.value;
      if token == "" {
        return Fail(BadRequestError(TokenRequired));
      }
      var tokenHash := env.sha256Hex(token);
      var j := FindTokenIndex(HashIs(tokenHash));
      if j.None? {
        return Fail(BadRequestError(InvalidToken));
      }
      // a used or an expired row is deleted, with its own message
      var wasUsed := tokens[j.value].used;
      if wasUsed || now > tokens[j.value].expiresAt {
        tokens := tokens[..j.value] + tokens[j.value + 1..];
        return Fail(BadRequestError(if wasUsed then TokenUsed else TokenExpired));
      }
      return Sent(Envelope(TokenValid, TokenValidity(true), 200));
    }

    method ResetPassword(body: Body, now: int) returns (reply: Reply)
      requires Valid()
      modifies this
      ensures Valid()
      ensures var s := AuthFlows.ResetPassword(env, old(Tables()), body, now);
              Tables() == s.db && reply == s.reply
    {
      ResetKeepsValid(env, Tables(), body, now);
      HandleKeepsNeverUsed(env, Tables(), Reset(body, now));
      var result := ResetPasswordSchema(body);
      if result.None? {
        return Fail(BadRequestError(ResetSchemaFailed));
      }
      var data := result.value;
      if data.newPassword != data.confirmPassword {
        return Fail(BadRequestError(PasswordsDiffer));
      }
      var tokenHash := env.sha256Hex(data.token);
      var j := FindTokenIndex(HashIs(tokenHash));
      if j.None? {
        return Fail(BadRequestError(InvalidToken));
      }
      var existToken := tokens[j.value];
      if existToken.used {
        return Fail(BadRequestError(TokenUsed));
      }
      if now > existToken.expiresAt {
        tokens := tokens[..j.value] + tokens[j.value + 1..];
        return Fail(BadRequestError(TokenExpired));
      }
      var k := FindUserIndex(IdIs(existToken.userId));
      if k.None? {
        tokens := tokens[..j.value] + tokens[j.value + 1..];
        return Fail(BadRequestError(UserMissing));
      }
      var hashedPassword := env.passwordHash(data.newPassword);
      // the transaction: both writes in one step
      users, tokens := users[k.value := users[k.value].(password := Some(hashedPassword))],
                       tokens[..j.value] + tokens[j.value + 1..];
      return Sent(Envelope(PasswordReset, NoData, 200));
    }
  }
}

=== FILE: error_classification.dfy ===
/** The catch chain of `asyncHandler` (src/utils/asyncHandler.ts): every
    value a route handler throws is turned into exactly one error passed to
    `next`, by an ordered series of tests. `production` stands for
    `process.env.NODE_ENV === 'production'`. */
module ErrorClassification {
  import opened Text
  import opened AppErrors

  /** `error.meta?.target` of a Prisma known-request error: usually a list of
      field names; the source casts it to `string[]` without checking, so a
      plain string target is read character-wise. */
  datatype MetaTarget = NoTarget | TargetFields(fields: seq<string>) | TargetName(name: string)

  /** The Prisma client error classes the chain tests with `instanceof`. */
  datatype PrismaError =
    | KnownRequest(code: string, target: MetaTarget)
    | PrismaValidation
    | PrismaInitialization
    | PrismaRustPanic

  /** One entry of a ZodError's `errors` array. */
  datatype ZodIssue = ZodIssue(path: seq<string>, message: string)

  /** What the chain can observe of a thrown value: the `statusCode` and
      `isOperational` properties (None when undefined), its Prisma class if
      any, `name`, `message` (None when undefined) and a ZodError's `errors`
      (None when it is not an array). */
  datatype Thrown = Thrown(
    statusCode: Option<int>,
    isOperational: Option<bool>,
    prisma: Option<PrismaError>,
    name: string,
    message: Option<string>,
    errors: Option<seq<ZodIssue>>)

  /** What reaches `next`: the thrown value itself, or a new AppError. */
  datatype Forwarded = PassedOn(thrown: Thrown) | Converted(error: AppError)

  /** `throw new XError(...)`: AppError sets `statusCode` but never
      `isOperational`, and inherits `name` from Error. */
  function Raise(e: AppError): (t: Thrown)
    ensures t.statusCode == StatusCode(e.cls) && t.message == e.message
    ensures t.isOperational.None? && t.prisma.None? && t.name != "ZodError"
  {
    Thrown(StatusCode(e.cls), None, None, "Error", e.message, None)
  }

  /** `throw new Error(m)`. */
  function PlainError(m: string): Thrown
  {
    Thrown(None, None, None, "Error", Some(m), None)
  }

  /** A Prisma client error; its message text is not tracked by the model
      when `m` is None. */
  function PrismaThrown(p: PrismaError, m: Option<string>): Thrown
  {
    Thrown(None, None, Some(p), "PrismaClientError", m, None)
  }

  /** The first test of the chain: a truthy `statusCode` and a defined
      `isOperational`. */
  predicate IsForwardedAsIs(t: Thrown)
  {
    t.statusCode.Some? && t.statusCode.value != 0 && t.isOperational.Some?
  }

  /** A template literal's rendering of a possibly undefined string. */
  function Render(m: Option<string>): string
  {
    if m.Some? then m.value else "undefined"
  }

  // ---------------------------------------------------------------- handlePrismaError

  /** `(error.meta?.target as string[])?.[0] || 'field'`. */
  function TargetField(target: MetaTarget): (f: string)
    ensures f != ""
    ensures target.NoTarget? ==> f == "field"
    ensures target.TargetFields? && target.fields != [] && target.fields[0] != "" ==> f == target.fields[0]
    ensures target.TargetFields? && (target.fields == [] || target.fields[0] == "") ==> f == "field"
    ensures target.TargetName? ==> f == (if target.name != "" then [target.name[0]] else "field")
  {
    match target
    case NoTarget => "field"
    case TargetFields(fs) => if fs != [] && fs[0] != "" then fs[0] else "field"
    case TargetName(n) => if n != [] then [n[0]] else "field"
  }

  const BadRequestCodes: set<string> := {"P2025", "P2003", "P2011", "P2014"}
  const ConnectionCodes: set<string> := {"P1001", "P1002", "P1008", "P1017"}

  /** The switch on a known-request error's code. */
  function HandlePrismaError(code: string, target: MetaTarget, message: Option<string>, production: bool): (e: AppError)
    ensures code == "P2002" ==> e == ConflictError(TargetField(target) + " already exists")
    ensures code in BadRequestCodes ==> e.cls == BadRequest
    ensures code == "P2025" ==> e == BadRequestError("Record not found")
    ensures code == "P2003" ==> e == BadRequestError("Invalid reference")
    ensures code == "P2011" ==> e == BadRequestError("Required field is missing")
    ensures code == "P2014" ==> e == BadRequestError("Invalid relation")
    ensures code in ConnectionCodes ==> e == ServiceUnavailableError("Database connection error")
    ensures e.cls == InternalServer <==> code != "P2002" && code !in BadRequestCodes && code !in ConnectionCodes
    ensures e.cls == InternalServer ==>
      e.message == Some(if production then "Database operation failed" else "Database error: " + Render(message))
  {
    match code
    case "P2002" => ConflictError(TargetField(target) + " already exists")
    case "P2025" => BadRequestError("Record not found")
    case "P2003" => BadRequestError("Invalid reference")
    case "P2011" => BadRequestError("Required field is missing")
    case "P2014" => BadRequestError("Invalid relation")
    case "P1001" => ServiceUnavailableError("Database connection error")
    case "P1002" => ServiceUnavailableError("Database connection error")
    case "P1008" => ServiceUnavailableError("Database connection error")
    case "P1017" => ServiceUnavailableError("Database connection error")
    case _ =>
      InternalServerError(Some(if production then "Database operation failed"
                               else "Database error: " + Render(message)))
  }

  // ---------------------------------------------------------------- formatZodError

  /** `${err.path.join('.')}: ${err.message}` */
  function IssueText(i: ZodIssue): string
  {
    Join(i.path, ".") + ": " + i.message
  }

  /** Issues joined with ", ", or 'Validation failed' without an errors array. */
  function FormatZodError(errors: Option<seq<ZodIssue>>): (m: string)
    ensures errors.None? ==> m == "Validation failed"
    ensures errors == Some([]) ==> m == ""
    ensures errors.Some? && |errors.value| == 1 ==> m == IssueText(errors.value[0])
  {
    if errors.None? then "Validation failed"
    else Join(seq(|errors.value|, k requires 0 <= k < |errors.value| => IssueText(errors.value[k])), ", ")
  }

  /** One more issue appends ", " and its text. */
  lemma FormatZodErrorSnoc(issues: seq<ZodIssue>, i: ZodIssue)
    requires issues != []
    ensures FormatZodError(Some(issues + [i])) == FormatZodError(Some(issues)) + ", " + IssueText(i)
  {
    var texts := seq(|issues|, k requires 0 <= k < |issues| => IssueText(issues[k]));
    var all := issues + [i];
    assert seq(|all|, k requires 0 <= k < |all| => IssueText(all[k])) == texts + [IssueText(i)];
    JoinSnoc(texts, IssueText(i), ", ");
  }

  // ---------------------------------------------------------------- the chain

  /** The catch block of `asyncHandler`. */
  function Classify(t: Thrown, production: bool): (r: Forwarded)
    ensures r.PassedOn? <==> IsForwardedAsIs(t)
    ensures r.PassedOn? ==> r.thrown == t
    ensures r.Converted? ==> r.error.cls in {BadRequest, Conflict, ServiceUnavailable, InternalServer}
  {
    if IsForwardedAsIs(t) then PassedOn(t)
    else if t.prisma.Some? && t.prisma.value.KnownRequest? then
      Converted(HandlePrismaError(t.prisma.value.code, t.prisma.value.target, t.message, production))
    else if t.prisma == Some(PrismaValidation) then
      Converted(BadRequestError("Invalid data provided"))
    else if t.prisma == Some(PrismaInitialization) then
      Converted(ServiceUnavailableError("Database connection failed"))
    else if t.prisma == Some(PrismaRustPanic) then
      Converted(InternalServerError(Some("Database engine error")))
    else if t.message.Some? && Includes(t.message.value, "Environment variable not found") then
      Converted(ServiceUnavailableError("Database configuration error"))
    else if t.message.Some? && Includes(t.message.value, "Can't reach database server") then
      Converted(ServiceUnavailableError("Database server unreachable"))
    else if t.name == "ZodError" then
      Converted(BadRequestError(FormatZodError(t.errors)))
    else
      Converted(InternalServerError(if production then Some("An unexpected error occurred") else t.message))
  }

  // ---------------------------------------------------------------- the chain as a rule table

  /** The same chain written as a table of independent rules, each with its
      own applicability test and outcome; the first rule that applies wins. */
  datatype Rule =
    | ForwardAsIs
    | PrismaKnownRequestRule
    | PrismaValidationRule
    | PrismaInitializationRule
    | PrismaPanicRule
    | MissingEnvironmentRule
    | UnreachableDatabaseRule
    | ZodRule
    | UnknownRule

  const RuleOrder: seq<Rule> := [
    ForwardAsIs, PrismaKnownRequestRule, PrismaValidationRule, PrismaInitializationRule,
    PrismaPanicRule, MissingEnvironmentRule, UnreachableDatabaseRule, ZodRule, UnknownRule]

  predicate Applies(rule: Rule, t: Thrown)
  {
    match rule
    case ForwardAsIs => IsForwardedAsIs(t)
    case PrismaKnownRequestRule => t.prisma.Some? && t.prisma.value.KnownRequest?
    case PrismaValidationRule => t.prisma == Some(PrismaValidation)
    case PrismaInitializationRule => t.prisma == Some(PrismaInitialization)
    case PrismaPanicRule => t.prisma == Some(PrismaRustPanic)
    case MissingEnvironmentRule => t.message.Some? && Includes(t.message.value, "Environment variable not found")
    case UnreachableDatabaseRule => t.message.Some? && Includes(t.message.value, "Can't reach database server")
    case ZodRule => t.name == "ZodError"
    case UnknownRule => true
  }

  function RuleResult(rule: Rule, t: Thrown, production: bool): Forwarded
  {
    match rule
    case ForwardAsIs => PassedOn(t)
    case PrismaKnownRequestRule =>
      if t.prisma.Some? && t.prisma.value.KnownRequest?
      then Converted(HandlePrismaError(t.prisma.value.code, t.prisma.value.target, t.message, production))
      else Converted(InternalServerError(t.message))
    case PrismaValidationRule => Converted(BadRequestError("Invalid data provided"))
    case PrismaInitializationRule => Converted(ServiceUnavailableError("Database connection failed"))
    case PrismaPanicRule => Converted(InternalServerError(Some("Database engine error")))
    case MissingEnvironmentRule => Converted(ServiceUnavailableError("Database configuration error"))
    case UnreachableDatabaseRule => Converted(ServiceUnavailableError("Database server unreachable"))
    case ZodRule => Converted(BadRequestError(FormatZodError(t.errors)))
    case UnknownRule =>
      Converted(InternalServerError(if production then Some("An unexpected error occurred") else t.message))
  }

  /** Index of the first rule of `RuleOrder`, from `from` on, that applies to `t`. */
  function FirstRuleFrom(t: Thrown, from: nat): (i: nat)
    requires from < |RuleOrder|
    ensures from <= i < |RuleOrder| && Applies(RuleOrder[i], t)
    ensures forall j :: from <= j < i ==> !Applies(RuleOrder[j], t)
    decreases |RuleOrder| - from
  {
    if Applies(RuleOrder[from], t) then from
    else FirstRuleFrom(t, from + 1)
  }

  /** Some rule always applies (the last one applies to everything), so
      every thrown value has exactly one first applicable rule. */
  function FirstRule(t: Thrown): (i: nat)
    ensures i < |RuleOrder| && Applies(RuleOrder[i], t)
    ensures forall j :: 0 <= j < i ==> !Applies(RuleOrder[j], t)
  {
    FirstRuleFrom(t, 0)
  }

  /** The chain and the table agree on every thrown value. */
  lemma ClassifyFollowsRuleTable(t: Thrown, production: bool)
    ensures Classify(t, production) == RuleResult(RuleOrder[FirstRule(t)], t, production)
  {
    var i := FirstRule(t);
    var rule := RuleOrder[i];
    // Each rule before the winning one was tried and did not apply.
    if 0 < i { assert !Applies(RuleOrder[0], t); }
    if 1 < i { assert !Applies(RuleOrder[1], t); }
    if 2 < i { assert !Applies(RuleOrder[2], t); }
    if 3 < i { assert !Applies(RuleOrder[3], t); }
    if 4 < i { assert !Applies(RuleOrder[4], t); }
    if 5 < i { assert !Applies(RuleOrder[5], t); }
    if 6 < i { assert !Applies(RuleOrder[6], t); }
    if 7 < i { assert !Applies(RuleOrder[7], t); }
    assert Applies(rule, t);
  }

  // ---------------------------------------------------------------- consequences

  /** In production, no error the chain creates for a value it does not
      recognise carries that value's own message. */
  lemma ProductionHidesUnknownMessages(t: Thrown)
    requires FirstRule(t) == |RuleOrder| - 1
    ensures Classify(t, true) == Converted(InternalServerError(Some("An unexpected error occurred")))
    ensures Classify(t, false) == Converted(InternalServerError(t.message))
  {
  }

  /** The application's own errors fail the first test, because AppError
      never sets `isOperational`: one whose message mentions neither
      database marker ends up as a generic internal error. */
  lemma OwnErrorsNotForwarded(e: AppError, production: bool)
    requires !Includes(Render(e.message), "Environment variable not found")
    requires !Includes(Render(e.message), "Can't reach database server")
    ensures Classify(Raise(e), production)
         == Converted(InternalServerError(if production then Some("An unexpected error occurred") else e.message))
  {
  }

  /** The conflict the sign-up handler raises for a taken email reaches
      the client as a generic 'An unexpected error occurred' in production. */
  lemma ConflictBecomesInternal()
    ensures Classify(Raise(ConflictError("Email already exists")), true)
         == Converted(InternalServerError(Some("An unexpected error occurred")))
  {
    OwnErrorsNotForwarded(ConflictError("Email already exists"), true);
  }

  /** What the first test evidently expects of the application's errors:
      `isOperational` set (to true) by the AppError constructor. */
  function RaiseOperational(e: AppError): (t: Thrown)
    ensures t.statusCode == StatusCode(e.cls) && t.message == e.message
    ensures t.isOperational == Some(true)
  {
    Thrown(StatusCode(e.cls), Some(true), None, "Error", e.message, None)
  }

  /** With `isOperational` set, every error of a defined class is passed on
      unchanged, with its own status code and message. */
  lemma OperationalErrorsForwarded(e: AppError, production: bool)
    requires IsDefined(e.cls)
    ensures Classify(RaiseOperational(e), production) == PassedOn(RaiseOperational(e))
  {
  }
}

=== FILE: errors.dfy ===
/** The application's error classes (src/utils/Error.ts). An `AppError`
    carries a message and a status code fixed by its class; nothing changes
    either after construction, so an error is a value. */
module AppErrors {
  import opened Text

  /** BadRequest, Unauthorized, NotFound and Conflict are defined in
      Error.ts. InternalServer, ServiceUnavailable and TooManyRequests are
      imported by other files but have no definition there, so their status
      code and default message are unknown to this model. */
  datatype ErrorClass =
    | BadRequest
    | Unauthorized
    | NotFound
    | Conflict
    | InternalServer
    | ServiceUnavailable
    | TooManyRequests

  predicate IsDefined(c: ErrorClass)
  {
    c.BadRequest? || c.Unauthorized? || c.NotFound? || c.Conflict?
  }

  /** The `statusCode` every instance of a defined class carries. */
  function StatusCode(c: ErrorClass): (code: Option<int>)
    ensures code.Some? <==> IsDefined(c)
    ensures code.Some? ==> 400 <= code.value < 500
  {
    match c
    case BadRequest => Some(400)
    case Unauthorized => Some(401)
    case NotFound => Some(404)
    case Conflict => Some(409)
    case _ => None
  }

  /** The message a defined class's constructor uses when given none. */
  function DefaultMessage(c: ErrorClass): (m: Option<string>)
    ensures m.Some? <==> IsDefined(c)
  {
    match c
    case BadRequest => Some("Bad Request")
    case Unauthorized => Some("Unauthorized")
    case NotFound => Some("Not Found")
    case Conflict => Some("Already Exists")
    case _ => None
  }

  /** An error as constructed; `message` is None only for a class whose
      default is unknown, constructed without a message. */
  datatype AppError = AppError(cls: ErrorClass, message: Option<string>)

  /** `new XError(message)`, where an absent (undefined) message selects
      the class's default. */
  function NewError(c: ErrorClass, message: Option<string>): (e: AppError)
    ensures e.cls == c
    ensures message.Some? ==> e.message == message
    ensures message.None? ==> e.message == DefaultMessage(c)
    ensures IsDefined(c) ==> e.message.Some?
  {
    AppError(c, if message.Some? then message else DefaultMessage(c))
  }

  /** The four defined classes: status codes and default messages. */
  lemma DefinedClasses()
    ensures StatusCode(BadRequest) == Some(400) && DefaultMessage(BadRequest) == Some("Bad Request")
    ensures StatusCode(Unauthorized) == Some(401) && DefaultMessage(Unauthorized) == Some("Unauthorized")
    ensures StatusCode(NotFound) == Some(404) && DefaultMessage(NotFound) == Some("Not Found")
    ensures StatusCode(Conflict) == Some(409) && DefaultMessage(Conflict) == Some("Already Exists")
  {
  }

  /** A supplied message replaces the default; the class, and with it the
      status code, is the same whichever message is given. */
  lemma MessageReplacesDefault(c: ErrorClass, m: string, m': Option<string>)
    ensures NewError(c, Some(m)).message == Some(m)
    ensures NewError(c, Some(m)).cls == NewError(c, m').cls
    ensures StatusCode(NewError(c, Some(m)).cls) == StatusCode(c)
  {
  }

  function BadRequestError(m: string): AppError { NewError(BadRequest, Some(m)) }
  function NotFoundError(m: string): AppError { NewError(NotFound, Some(m)) }
  function ConflictError(m: string): AppError { NewError(Conflict, Some(m)) }
  function InternalServerError(m: Option<string>): AppError { NewError(InternalServer, m) }
  function ServiceUnavailableError(m: string): AppError { NewError(ServiceUnavailable, Some(m)) }
  function TooManyRequestsError(m: string): AppError { NewError(TooManyRequests, Some(m)) }
}

=== FILE: rate_limiter.dfy ===
/** The fixed-window rate limiter of src/middleware/Ratelimitor.ts. One
    store, shared by every limiter, maps a key derived from the request to
    a mutable record; the middleware opens a window or counts a call in it,
    rejects once the count exceeds the limit, and can later give the call
    back when the response status matches a skip option. Time is a
    parameter in milliseconds. */
module RateLimit {
  import opened Text
  import opened AppErrors

  // ---------------------------------------------------------------- keys

  /** The parts of an Express request the key generators read: `req.ip`,
      `req.socket.remoteAddress` and `req.body.email` (None when undefined). */
  datatype Request = Request(ip: Option<string>, remoteAddress: Option<string>, email: Option<string>)

  /** `getIpKey`: the request's IP, else the socket address, else 'unknown'. */
  function IpKey(req: Request): (k: string)
    ensures k != ""
    ensures Truthy(req.ip) ==> k == req.ip.value
    ensures !Truthy(req.ip) && Truthy(req.remoteAddress) ==> k == req.remoteAddress.value
    ensures !Truthy(req.ip) && !Truthy(req.remoteAddress) ==> k == "unknown"
  {
    if Truthy(req.ip) then req.ip.value
    else if Truthy(req.remoteAddress) then req.remoteAddress.value
    else "unknown"
  }

  /** `getEmailKey`: the body's email lower-cased, or 'no-email'. */
  function EmailKey(req: Request): (k: string)
    ensures k != "" && NoUpper(k)
    ensures Truthy(req.email) ==> k == Lower(req.email.value)
    ensures !Truthy(req.email) ==> k == "no-email"
  {
    var email := if Truthy(req.email) then req.email.value else "no-email";
    LowerFacts(email);
    assert NoUpper("no-email");
    Lower(email)
  }

  /** `getEmailIpKey`: the two keys joined by a hyphen. */
  function EmailIpKey(req: Request): (k: string)
    ensures Truthy(req.email) ==> k == Lower(req.email.value) + "-" + IpKey(req)
    ensures !Truthy(req.email) ==> k == "no-email-" + IpKey(req)
    ensures |k| > |IpKey(req)| && k[|k| - |IpKey(req)|..] == IpKey(req)
  {
    EmailKey(req) + "-" + IpKey(req)
  }

  datatype KeyStrategy = ByIp | ByEmail | ByEmailAndIp

  function KeyOf(strategy: KeyStrategy, req: Request): string
  {
    match strategy
    case ByIp => IpKey(req)
    case ByEmail => EmailKey(req)
    case ByEmailAndIp => EmailIpKey(req)
  }

  /** The key of a status query or a clear, whose key generator defaults
      to `getIpKey`. */
  function QueryKey(req: Request, keyGenerator: Option<KeyStrategy>): (k: string)
    ensures keyGenerator.None? ==> k == IpKey(req)
  {
    KeyOf(if keyGenerator.Some? then keyGenerator.value else ByIp, req)
  }

  /** Two requests whose emails differ only in ASCII case share their email key. */
  lemma EmailKeyIgnoresCase(a: Request, b: Request)
    requires Truthy(a.email) && Truthy(b.email) && Lower(a.email.value) == Lower(b.email.value)
    requires IpKey(a) == IpKey(b)
    ensures EmailKey(a) == EmailKey(b) && EmailIpKey(a) == EmailIpKey(b)
  {
  }

  /** IP addresses contain no hyphen, so the combined key determines both
      of its parts: the hyphen that joins them is the last one. */
  lemma {:induction false} EmailIpKeyDeterminesParts(a: Request, b: Request)
    requires '-' !in IpKey(a) && '-' !in IpKey(b)
    requires EmailIpKey(a) == EmailIpKey(b)
    ensures EmailKey(a) == EmailKey(b) && IpKey(a) == IpKey(b)
  {
    HyphenSplitsOnce(EmailKey(a), IpKey(a), EmailKey(b), IpKey(b));
  }

  /** Joining with a hyphen is injective when the right parts hold none. */
  lemma HyphenSplitsOnce(ea: string, ia: string, eb: string, ib: string)
    requires '-' !in ia && '-' !in ib && ea + "-" + ia == eb + "-" + ib
    ensures ea == eb && ia == ib
  {
    var s := ea + "-" + ia;
    assert s[|ea|] == '-' && s[|eb|] == '-';
    assert forall j :: |ea| < j < |s| ==> s[j] == ia[j - |ea| - 1];
    assert forall j :: |eb| < j < |s| ==> s[j] == ib[j - |eb| - 1];
    assert |ea| == |eb|;
    assert ea == s[..|ea|] == eb;
    assert ia == s[|ea| + 1..] == ib;
  }

  // ---------------------------------------------------------------- configuration

  /** The options `createRateLimiter` receives; None is an omitted option. */
  datatype Options = Options(
    windowMs: int, max: int, message: Option<string>, keyGenerator: Option<KeyStrategy>,
    skipSuccessfulRequests: Option<bool>, skipFailedRequests: Option<bool>)

  datatype Config = Config(
    windowMs: int, max: int, message: string, keyGenerator: KeyStrategy,
    skipSuccessfulRequests: bool, skipFailedRequests: bool)

  const DefaultMessage := "Too many requests. Please try again later."

  /** The destructuring with defaults at the head of `createRateLimiter`. */
  function Settle(o: Options): (c: Config)
    ensures c.windowMs == o.windowMs && c.max == o.max
    ensures c.message == (if o.message.Some? then o.message.value else DefaultMessage)
    ensures c.keyGenerator == (if o.keyGenerator.Some? then o.keyGenerator.value else ByIp)
    ensures c.skipSuccessfulRequests <==> o.skipSuccessfulRequests == Some(true)
    ensures c.skipFailedRequests <==> o.skipFailedRequests == Some(true)
  {
    Config(
      o.windowMs, o.max,
      if o.message.Some? then o.message.value else DefaultMessage,
      if o.keyGenerator.Some? then o.keyGenerator.value else ByIp,
      o.skipSuccessfulRequests == Some(true),
      o.skipFailedRequests == Some(true))
  }

  const Minute := 60 * 1000

  const LoginLimiter := Settle(Options(15 * Minute, 5,
    Some("Too many login attempts. Please try again after 15 minutes."), Some(ByEmailAndIp), Some(false), Some(false)))
  const RegisterLimiter := Settle(Options(60 * Minute, 3,
    Some("Too many registration attempts. Please try again after an hour."), Some(ByIp), None, None))
  const GenerateOtpLimiter := Settle(Options(60 * Minute, 3,
    Some("Too many OTP requests. Please try again after an hour."), Some(ByEmail), None, None))
  const GenerateOtpIpLimiter := Settle(Options(60 * Minute, 10,
    Some("Too many OTP requests from this IP. Please try again later."), Some(ByIp), None, None))
  const ForgotPasswordLimiter := Settle(Options(60 * Minute, 3,
    Some("Too many password reset requests. Please try again after an hour."), Some(ByEmail), None, None))
  const ForgotPasswordIpLimiter := Settle(Options(60 * Minute, 10,
    Some("Too many password reset requests from this IP. Please try again later."), Some(ByIp), None, None))
  const ResetPasswordLimiter := Settle(Options(15 * Minute, 5,
    Some("Too many password reset attempts. Please try again after 15 minutes."), Some(ByIp), None, None))
  const VerifyResetTokenLimiter := Settle(Options(15 * Minute, 10,
    Some("Too many token verification attempts. Please try again later."), Some(ByIp), None, None))
  const GlobalLimiter := Settle(Options(15 * Minute, 100,
    Some("Too many requests from this IP. Please try again later."), Some(ByIp), None, None))

  /** The nine limiters after their defaults are filled in: window in
      milliseconds, limit and key; none of them gives calls back. */
  lemma LimiterSettings()
    ensures LoginLimiter.windowMs == 900000 && LoginLimiter.max == 5 && LoginLimiter.keyGenerator == ByEmailAndIp
    ensures RegisterLimiter.windowMs == 3600000 && RegisterLimiter.max == 3 && RegisterLimiter.keyGenerator == ByIp
    ensures GenerateOtpLimiter.windowMs == 3600000 && GenerateOtpLimiter.max == 3 && GenerateOtpLimiter.keyGenerator == ByEmail
    ensures GenerateOtpIpLimiter.windowMs == 3600000 && GenerateOtpIpLimiter.max == 10 && GenerateOtpIpLimiter.keyGenerator == ByIp
    ensures ForgotPasswordLimiter.windowMs == 3600000 && ForgotPasswordLimiter.max == 3 && ForgotPasswordLimiter.keyGenerator == ByEmail
    ensures ForgotPasswordIpLimiter.windowMs == 3600000 && ForgotPasswordIpLimiter.max == 10 && ForgotPasswordIpLimiter.keyGenerator == ByIp
    ensures ResetPasswordLimiter.windowMs == 900000 && ResetPasswordLimiter.max == 5 && ResetPasswordLimiter.keyGenerator == ByIp
    ensures VerifyResetTokenLimiter.windowMs == 900000 && VerifyResetTokenLimiter.max == 10 && VerifyResetTokenLimiter.keyGenerator == ByIp
    ensures GlobalLimiter.windowMs == 900000 && GlobalLimiter.max == 100 && GlobalLimiter.keyGenerator == ByIp
    ensures forall c :: c in {LoginLimiter, RegisterLimiter, GenerateOtpLimiter, GenerateOtpIpLimiter,
                              ForgotPasswordLimiter, ForgotPasswordIpLimiter, ResetPasswordLimiter,
                              VerifyResetTokenLimiter, GlobalLimiter} ==>
              !c.skipSuccessfulRequests && !c.skipFailedRequests
  {
  }

  // ---------------------------------------------------------------- windows as values

  /** A record's contents. */
  datatype Window = Window(count: int, resetTime: int, firstRequestTime: int)

  function Lookup(m: map<string, Window>, key: string): Option<Window>
  {
    if key in m then Some(m[key]) else None
  }

  /** The record after one call at `now`: a fresh window when there is none
      or the old one has ended, and the call counted in it. */
  function Advance(w: Option<Window>, now: int, windowMs: int): (w': Window)
    ensures w.None? || now > w.value.resetTime ==> w' == Window(1, now + windowMs, now)
    ensures w.Some? && now <= w.value.resetTime ==>
              w'.count == w.value.count + 1
              && w'.resetTime == w.value.resetTime && w'.firstRequestTime == w.value.firstRequestTime
  {
    var base := if w.None? || now > w.value.resetTime then Window(0, now + windowMs, now) else w.value;
    base.(count := base.count + 1)
  }

  /** `Math.ceil(n / d)` for integers and a positive divisor. */
  function CeilDiv(n: int, d: int): (q: int)
    requires d > 0
    ensures d * (q - 1) < n <= d * q
  {
    -((-n) / d)
  }

  /** The headers a call sets and, when it is over the limit, the error it throws. */
  datatype Decision = Decision(limit: int, remaining: int, resetTime: int, retryAfter: Option<int>, error: Option<AppError>)

  /** What the middleware reports and decides once the call is counted in `w`. */
  function Decide(w: Window, now: int, config: Config): (d: Decision)
    ensures d.limit == config.max && d.resetTime == w.resetTime
    ensures d.remaining >= 0 && d.remaining >= config.max - w.count
    ensures d.remaining == 0 || d.remaining == config.max - w.count
    ensures d.error.Some? <==> w.count > config.max
    ensures d.error.Some? ==> d.error.value == TooManyRequestsError(config.message)
    ensures d.retryAfter.Some? <==> d.error.Some?
    ensures d.retryAfter.Some? ==> 1000 * (d.retryAfter.value - 1) < w.resetTime - now <= 1000 * d.retryAfter.value
  {
    var remaining := if config.max - w.count > 0 then config.max - w.count else 0;
    var rejected := w.count > config.max;
    Decision(
      config.max, remaining, w.resetTime,
      if rejected then Some(CeilDiv(w.resetTime - now, 1000)) else None,
      if rejected then Some(TooManyRequestsError(config.message)) else None)
  }

  /** The status ranges a skip option gives back. */
  predicate Skips(config: Config, statusCode: int)
  {
    (config.skipSuccessfulRequests && 200 <= statusCode < 300)
    || (config.skipFailedRequests && statusCode >= 400)
  }

  /** The count after the patched `res.send` ran with `statusCode`. */
  function RolledBack(count: int, config: Config, statusCode: int): (c: int)
    ensures c == count - 1 <==> Skips(config, statusCode) && count > 0
    ensures c == count || c == count - 1
    ensures count >= 0 ==> c >= 0
  {
    if Skips(config, statusCode) && count > 0 then count - 1 else count
  }

  /** The store after the sweep at `now`: entries whose window ended before
      `now` are gone, the others are kept as they are. */
  function Swept(m: map<string, Window>, now: int): (r: map<string, Window>)
    ensures forall k :: k in r <==> k in m && m[k].resetTime >= now
    ensures forall k :: k in r ==> r[k] == m[k]
  {
    map k | k in m && m[k].resetTime >= now :: m[k]
  }

  /** The result of `getRateLimitStatus`; `NotLimited` reports an unbounded remaining. */
  datatype Status = NotLimited | Limited(count: int, resetTime: int, remaining: int)

  // ---------------------------------------------------------------- properties of the values

  /** A sweep is invisible to later calls: any key it removes would have
      had its window reopened by the next call anyway. */
  lemma SweepUnobservable(m: map<string, Window>, key: string, sweptAt: int, now: int, windowMs: int)
    requires sweptAt <= now
    ensures Advance(Lookup(Swept(m, sweptAt), key), now, windowMs) == Advance(Lookup(m, key), now, windowMs)
  {
  }

  /** The record after a sequence of calls at `times`, starting from `w`. */
  function Run(w: Option<Window>, times: seq<int>, windowMs: int): Option<Window>
  {
    if times == [] then w
    else Some(Advance(Run(w, times[..|times| - 1], windowMs), times[|times| - 1], windowMs))
  }

  /** Calls that all fall inside the window the first of them opens are all
      counted in it, the rejected ones included. */
  lemma {:induction false} BurstWithinWindow(times: seq<int>, windowMs: int)
    requires |times| >= 1
    requires forall i :: 0 < i < |times| ==> times[i] <= times[0] + windowMs
    ensures Run(None, times, windowMs) == Some(Window(|times|, times[0] + windowMs, times[0]))
    decreases |times|
  {
    var n := |times|;
    var prefix := times[..n - 1];
    if n > 1 {
      BurstWithinWindow(prefix, windowMs);
    }
  }

  /** From an empty key, inside one window, call number i (from 1) is
      rejected exactly when i > max, and it reports max(0, max - i) remaining:
      the first `max` calls pass and call `max + 1` is the first refused. */
  lemma BurstDecisions(times: seq<int>, config: Config, i: nat)
    requires 1 <= i <= |times|
    requires forall j :: 0 < j < |times| ==> times[j] <= times[0] + config.windowMs
    ensures Run(None, times[..i], config.windowMs).Some?
    ensures var d := Decide(Run(None, times[..i], config.windowMs).value, times[i - 1], config);
            && (d.error.Some? <==> i > config.max)
            && d.remaining == (if config.max - i > 0 then config.max - i else 0)
  {
    var p := times[..i];
    assert forall j :: 0 < j < |p| ==> p[j] == times[j];
    BurstWithinWindow(p, config.windowMs);
  }

  /** All IP-keyed limiters share one store: a call through the register
      limiter followed by one through the global limiter, from the same
      address within the hour, is counted twice in the register limiter's
      window, and the global limiter reports the register window's end. */
  lemma SharedStoreAcrossLimiters(req: Request, t: int, t': int)
    requires t <= t' <= t + RegisterLimiter.windowMs
    ensures KeyOf(RegisterLimiter.keyGenerator, req) == KeyOf(GlobalLimiter.keyGenerator, req)
    ensures var w := Advance(Some(Advance(None, t, RegisterLimiter.windowMs)), t', GlobalLimiter.windowMs);
            w.count == 2 && w.resetTime == t + 60 * Minute
  {
  }

  // ---------------------------------------------------------------- the store

  /** A record of `rateLimitStore`. The middleware keeps a reference to it
      for the rollback, so it is an object. */
  class RateLimitRecord {
    var count: int
    var resetTime: int
    var firstRequestTime: int

    /** A fresh window opened at `now`, with nothing counted yet. */
    constructor (now: int, windowMs: int)
      ensures count == 0 && resetTime == now + windowMs && firstRequestTime == now
    {
      count := 0;
      resetTime := now + windowMs;
      firstRequestTime := now;
    }

    function View(): Window
      reads this
    {
      Window(count, resetTime, firstRequestTime)
    }
  }

  class RateLimiter {
    /** `rateLimitStore`. */
    var store: map<string, RateLimitRecord>

    /** No record is shared between two keys. */
    ghost predicate Valid()
      reads this
    {
      forall k, k' :: k in store && k' in store && k != k' ==> store[k] != store[k']
    }

    /** The store's contents as values. */
    ghost function Windows(): map<string, Window>
      reads this, store.Values
    {
      map k | k in store :: store[k].View()
    }

    constructor ()
      ensures store == map[] && Valid()
    {
      store := map[];
    }

    /** The body of the middleware `createRateLimiter` returns, for one
        request at `now`. Only the entry for the request's key changes. The
        returned hook is the record the rollback would decrement; it is null
        when the call is rejected or no skip option is on. */
    method Admit(config: Config, req: Request, now: int) returns (d: Decision, hook: RateLimitRecord?)
      requires Valid()
      modifies this, store.Values
      ensures Valid()
      ensures var key := KeyOf(config.keyGenerator, req);
              && Windows() == old(Windows())[key := Advance(Lookup(old(Windows()), key), now, config.windowMs)]
              && d == Decide(Windows()[key], now, config)
              && (hook != null <==> d.error.None? && (config.skipSuccessfulRequests || config.skipFailedRequests))
              && (hook != null ==> hook == store[key])
    {
      var key := KeyOf(config.keyGenerator, req);
      d, hook := AdmitKey(config, key, now);
    }

    /** Admit once the key is computed. */
    method AdmitKey(config: Config, key: string, now: int) returns (d: Decision, hook: RateLimitRecord?)
      requires Valid()
      modifies this, store.Values
      ensures Valid()
      ensures && Windows() == old(Windows())[key := Advance(Lookup(old(Windows()), key), now, config.windowMs)]
              && d == Decide(Windows()[key], now, config)
              && (hook != null <==> d.error.None? && (config.skipSuccessfulRequests || config.skipFailedRequests))
              && (hook != null ==> hook == store[key])
    {
      ghost var before := Windows();
      var record: RateLimitRecord;
      if key !in store || now > store[key].resetTime {
        record := new RateLimitRecord(now, config.windowMs);
        store := store[key := record];
      } else {
        record := store[key];
      }
      record.count := record.count + 1;
      assert record.View() == Advance(Lookup(before, key), now, config.windowMs);
      assert forall k :: k in store && k != key ==> store[k] == old(store[k]) && store[k] != record;
      assert forall k :: k in store && k != key ==> store[k].View() == before[k];
      assert Windows() == before[key := record.View()];
      d := Decide(record.View(), now, config);
      if d.error.None? && (config.skipSuccessfulRequests || config.skipFailedRequests) {
        hook := record;
      } else {
        hook := null;
      }
    }

    /** The patched `res.send`: give the call back on a skipped status. The
        hook may meanwhile have been swept, cleared or replaced; it is still
        the record that is decremented. */
    method Rollback(hook: RateLimitRecord, config: Config, statusCode: int)
      modifies hook
      ensures hook.count == RolledBack(old(hook.count), config, statusCode)
      ensures hook.resetTime == old(hook.resetTime) && hook.firstRequestTime == old(hook.firstRequestTime)
    {
      if Skips(config, statusCode) {
        if hook.count > 0 {
          hook.count := hook.count - 1;
        }
      }
    }

    /** The periodic cleanup, run at `now`. */
    method Sweep(now: int)
      requires Valid()
      modifies this
      ensures Valid()
      ensures Windows() == Swept(old(Windows()), now)
    {
      var keys := store.Keys;
      while keys != {}
        invariant keys <= old(store).Keys
        invariant forall k :: k in store <==> k in old(store) && (k in keys || old(store)[k].resetTime >= now)
        invariant forall k :: k in store ==> store[k] == old(store)[k]
        decreases keys
      {
        var k :| k in keys;
        if store[k].resetTime < now {
          store := store - {k};
        }
        keys := keys - {k};
      }
      assert forall k :: k in Windows() <==> k in Swept(old(Windows()), now);
    }

    /** `getRateLimitStatus` at `now`; an omitted key generator is `getIpKey`. */
    function Status(req: Request, keyGenerator: Option<KeyStrategy>, now: int): (s: Status)
      reads this, store.Values
      ensures var key := QueryKey(req, keyGenerator);
              s.NotLimited? <==> key !in store || now > store[key].resetTime
      ensures s.Limited? ==>
                var r := store[QueryKey(req, keyGenerator)];
                s.count == r.count && s.resetTime == r.resetTime && s.remaining == r.resetTime - now >= 0
    {
      var key := QueryKey(req, keyGenerator);
      if key !in store then NotLimited
      else
        var r := store[key];
        if now > r.resetTime then NotLimited
        else Limited(r.count, r.resetTime, if r.resetTime - now > 0 then r.resetTime - now else 0)
    }

    /** `clearRateLimit`: drop the request's entry; an omitted key
        generator is `getIpKey`. */
    method Clear(req: Request, keyGenerator: Option<KeyStrategy>)
      requires Valid()
      modifies this
      ensures Valid()
      ensures store == old(store) - {QueryKey(req, keyGenerator)}
      ensures Windows() == old(Windows()) - {QueryKey(req, keyGenerator)}
    {
      store := store - {QueryKey(req, keyGenerator)};
    }

    /** `clearAllRateLimits`: drop every entry, one key at a time. */
    method ClearAll()
      modifies this
      ensures store == map[] && Valid()
    {
      var keys := store.Keys;
      while keys != {}
        invariant store.Keys == keys
        decreases keys
      {
        var k :| k in keys;
        store := store - {k};
        keys := keys - {k};
      }
    }
  }
}

=== FILE: schemas.dfy ===
/** The request validators of src/utils/schema.ts. Each schema either
    rejects its input or returns the parsed data (with the schema's
    transformations applied). Zod's `.email()` and `.url()` format checks
    are parameters `isEmail` and `isUrl`; `.min`/`.max` on strings count
    UTF-16 code units, as JavaScript's `length` does. */
module Schemas {
  import opened Text

  /** A JSON value of a request body or query. Arrays and objects are not
      inspected by any schema here and are lumped together. */
  datatype Json = JString(str: string) | JNumber(num: real) | JBool(flag: bool) | JNull | JComposite

  /** A request body or query: a missing key is `undefined`. */
  type Body = map<string, Json>

  predicate IsInteger(x: real) { x.Floor as real == x }

  predicate IsUsernameChar(c: char)
  {
    IsUpperAscii(c) || IsLowerAscii(c) || IsDigit(c) || c == '.' || c == '_' || c == '-'
  }

  predicate IsLowerHexDigit(c: char) { IsDigit(c) || 'a' <= c <= 'f' }

  predicate NonEmpty(s: string) { s != [] }

  /** `/[class]/.test(s)`: some character of `s` is in the class. */
  function TestClass(s: string, cls: char -> bool): (found: bool)
    ensures found <==> exists i :: 0 <= i < |s| && cls(s[i])
  {
    if s == [] then false
    else
      var rest := TestClass(s[1..], cls);
      assert forall i :: 0 < i < |s| ==> s[i] == s[1..][i - 1];
      cls(s[0]) || rest
  }

  /** `/^[class]*$/.test(s)`: every character of `s` is in the class. */
  function AllOfClass(s: string, cls: char -> bool): (all: bool)
    ensures all <==> forall i :: 0 <= i < |s| ==> cls(s[i])
  {
    if s == [] then true
    else
      var rest := AllOfClass(s[1..], cls);
      assert forall i :: 0 < i < |s| ==> s[i] == s[1..][i - 1];
      cls(s[0]) && rest
  }

  // ---------------------------------------------------------------- reusable schemas

  /** passwordSchema: at least 8 code units, with an upper-case letter, a
      lower-case letter and a digit somewhere. */
  function PasswordAccepts(s: string): (ok: bool)
    ensures ok <==> Utf16Length(s) >= 8
                    && (exists i :: 0 <= i < |s| && IsUpperAscii(s[i]))
                    && (exists i :: 0 <= i < |s| && IsLowerAscii(s[i]))
                    && (exists i :: 0 <= i < |s| && IsDigit(s[i]))
  {
    Utf16Length(s) >= 8 && TestClass(s, IsUpperAscii) && TestClass(s, IsLowerAscii) && TestClass(s, IsDigit)
  }

  /** usernameSchema's checks: 3 to 30 code units, all of them letters,
      digits, '.', '_' or '-'. */
  function UsernameAccepts(s: string): (ok: bool)
    ensures ok <==> 3 <= |s| <= 30 && forall i :: 0 <= i < |s| ==> IsUsernameChar(s[i])
  {
    var all := AllOfClass(s, IsUsernameChar);
    assert all ==> Utf16Length(s) == |s|;
    3 <= Utf16Length(s) <= 30 && |s| >= 1 && all
  }

  /** resetTokenSchema's checks: exactly 64 characters from [a-f0-9]. */
  function ResetTokenAccepts(s: string): (ok: bool)
    ensures ok <==> |s| == 64 && forall i :: 0 <= i < |s| ==> IsLowerHexDigit(s[i])
    ensures ok ==> forall i :: 0 <= i < |s| ==> !IsUpperAscii(s[i])
  {
    Utf16Length(s) >= 1 && AllOfClass(s, IsLowerHexDigit) && |s| == 64
  }

  /** The transformation of emailSchema: `.toLowerCase().trim()`. */
  function NormaliseEmail(s: string): (r: string)
    ensures NoUpper(r) && IsTrimmed(r)
    ensures exists i, j :: 0 <= i <= j <= |s| && r == Lower(s)[i..j]
              && (forall k :: 0 <= k < i ==> IsJsWhitespace(s[k]))
              && (forall k :: j <= k < |s| ==> IsJsWhitespace(s[k]))
  {
    LowerFacts(s);
    TrimLowerIsSlice(s);
    Trim(Lower(s))
  }

  /** A character that is white space after lower-casing was white space
      before: lower-casing changes only ASCII letters. */
  lemma LowerCharKeepsWhitespace(c: char)
    requires IsJsWhitespace(LowerChar(c))
    ensures IsJsWhitespace(c)
  {
    assert !IsLowerAscii(LowerChar(c));
  }

  /** Lower-casing touches no white space, so trimming the lower-cased
      string cuts the same ends as trimming the input would. */
  lemma TrimLowerIsSlice(s: string)
    ensures exists i, j :: 0 <= i <= j <= |s| && Trim(Lower(s)) == Lower(s)[i..j]
              && (forall k :: 0 <= k < i ==> IsJsWhitespace(s[k]))
              && (forall k :: j <= k < |s| ==> IsJsWhitespace(s[k]))
  {
    var l := Lower(s);
    var i, j :| 0 <= i <= j <= |l| && Trim(l) == l[i..j]
                && (forall k :: 0 <= k < i ==> IsJsWhitespace(l[k]))
                && (forall k :: j <= k < |l| ==> IsJsWhitespace(l[k]));
    forall k | 0 <= k < |s| && (k < i || j <= k)
      ensures IsJsWhitespace(s[k])
    {
      assert IsJsWhitespace(l[k]) && l[k] == LowerChar(s[k]);
      LowerCharKeepsWhitespace(s[k]);
    }
    assert Trim(l) == l[i..j];
  }

  /** Normalising an already normalised address changes nothing. */
  lemma NormaliseEmailIdempotent(s: string)
    ensures NormaliseEmail(NormaliseEmail(s)) == NormaliseEmail(s)
  {
    var t := NormaliseEmail(s);
    LowerFacts(t);
  }

  /** emailSchema: a string accepted by `.email()`, normalised. */
  function EmailSchema(isEmail: string -> bool, v: Json): (r: Option<string>)
    ensures r.Some? <==> v.JString? && isEmail(v.str)
    ensures r.Some? ==> r.value == NormaliseEmail(v.str)
  {
    if v.JString? && isEmail(v.str) then Some(NormaliseEmail(v.str)) else None
  }

  // ---------------------------------------------------------------- object schemas

  /** A required string property that must satisfy `p`. */
  predicate RequiredString(body: Body, key: string, p: string -> bool)
  {
    key in body && body[key].JString? && p(body[key].str)
  }

  /** An optional string property: absent, or a string satisfying `p`. */
  predicate OptionalString(body: Body, key: string, p: string -> bool)
  {
    key !in body || (body[key].JString? && p(body[key].str))
  }

  /** The value of an optional string property that passed its check. */
  function OptionalValue(body: Body, key: string): Option<string>
  {
    if key in body && body[key].JString? then Some(body[key].str) else None
  }

  datatype LoginData = LoginData(email: Option<string>, username: Option<string>, password: string, rememberMe: bool)

  /** loginSchema: optional email (trimmed and lower-cased), optional
      username, non-empty password, optional boolean rememberMe (default
      false), and at least one of email and username. Unknown keys are
      stripped. */
  function LoginSchema(isEmail: string -> bool, body: Body): (r: Option<LoginData>)
    ensures r.Some? <==>
      && OptionalString(body, "email", isEmail)
      && OptionalString(body, "username", UsernameAccepts)
      && RequiredString(body, "password", NonEmpty)
      && ("rememberMe" in body ==> body["rememberMe"].JBool?)
      && (("email" in body && Trim(body["email"].str) != "") || "username" in body)
    ensures r.Some? ==> r.value.password == body["password"].str != ""
    ensures r.Some? ==> (r.value.email.Some? && r.value.email.value != "") || r.value.username.Some?
    ensures r.Some? && r.value.email.Some? ==> NoUpper(r.value.email.value)
    ensures r.Some? ==> r.value.rememberMe == ("rememberMe" in body && body["rememberMe"].flag)
  {
    if && OptionalString(body, "email", isEmail)
       && OptionalString(body, "username", UsernameAccepts)
       && RequiredString(body, "password", NonEmpty)
       && ("rememberMe" in body ==> body["rememberMe"].JBool?)
    then
      var email := if "email" in body then Some(Lower(Trim(body["email"].str))) else None;
      var username := if "username" in body then Some(Trim(body["username"].str)) else None;
      var rememberMe := "rememberMe" in body && body["rememberMe"].flag;
      LowerFacts(Trim(if "email" in body then body["email"].str else ""));
      if (email.Some? && email.value != "") || username.Some? then
        Some(LoginData(email, username, body["password"].str, rememberMe))
      else None
    else None
  }

  const SignupKeys: set<string> :=
    {"name", "email", "password", "otp", "gender", "bio", "profilePictureUrl", "age", "acceptTerms"}

  predicate IsPositiveInteger(v: Json) { v.JNumber? && IsInteger(v.num) && v.num > 0.0 }
  predicate IsAge(v: Json) { v.JNumber? && IsInteger(v.num) && 13.0 <= v.num <= 120.0 }
  predicate IsGender(v: Json) { v.JString? && v.str in {"male", "female", "other"} }
  predicate IsBio(v: Json) { v.JString? && Utf16Length(v.str) <= 160 }

  datatype SignupData = SignupData(
    name: string, email: string, password: string, otp: int,
    gender: Option<string>, bio: Option<string>, profilePictureUrl: Option<string>, age: Option<int>)

  /** signupSchema: the strict sign-up object. */
  function SignupSchema(isEmail: string -> bool, isUrl: string -> bool, body: Body): (r: Option<SignupData>)
    ensures r.Some? <==>
      && body.Keys <= SignupKeys
      && RequiredString(body, "name", UsernameAccepts)
      && RequiredString(body, "email", isEmail)
      && RequiredString(body, "password", PasswordAccepts)
      && "otp" in body && IsPositiveInteger(body["otp"])
      && ("gender" in body ==> IsGender(body["gender"]))
      && ("bio" in body ==> IsBio(body["bio"]))
      && OptionalString(body, "profilePictureUrl", isUrl)
      && ("age" in body ==> IsAge(body["age"]))
      && "acceptTerms" in body && body["acceptTerms"] == JBool(true)
    ensures r.Some? ==>
      && r.value.name == body["name"].str
      && r.value.email == NormaliseEmail(body["email"].str)
      && r.value.password == body["password"].str
      && r.value.otp > 0 && r.value.otp as real == body["otp"].num
      && (r.value.age.Some? ==> 13 <= r.value.age.value <= 120)
  {
    if && body.Keys <= SignupKeys
       && RequiredString(body, "name", UsernameAccepts)
       && RequiredString(body, "email", isEmail)
       && RequiredString(body, "password", PasswordAccepts)
       && "otp" in body && IsPositiveInteger(body["otp"])
       && ("gender" in body ==> IsGender(body["gender"]))
       && ("bio" in body ==> IsBio(body["bio"]))
       && OptionalString(body, "profilePictureUrl", isUrl)
       && ("age" in body ==> IsAge(body["age"]))
       && "acceptTerms" in body && body["acceptTerms"] == JBool(true)
    then
      var name := body["name"].str;
      assert IsTrimmed(name) by {
        assert IsUsernameChar(name[0]) && IsUsernameChar(name[|name| - 1]);
      }
      Some(SignupData(
        Trim(name),
        NormaliseEmail(body["email"].str),
        body["password"].str,
        body["otp"].num.Floor,
        OptionalValue(body, "gender"),
        if "bio" in body then Some(Trim(body["bio"].str)) else None,
        OptionalValue(body, "profilePictureUrl"),
        if "age" in body then Some(body["age"].num.Floor) else None))
    else None
  }

  /** generateOtpSchema: `{ email: emailSchema }`. */
  function GenerateOtpSchema(isEmail: string -> bool, body: Body): (r: Option<string>)
    ensures r.Some? <==> RequiredString(body, "email", isEmail)
    ensures r.Some? ==> r.value == NormaliseEmail(body["email"].str)
  {
    if "email" in body then EmailSchema(isEmail, body["email"]) else None
  }

  /** forgotPasswordSchema: `{ email: emailSchema, ip?: string }`; returns the email. */
  function ForgotPasswordSchema(isEmail: string -> bool, body: Body): (r: Option<string>)
    ensures r.Some? <==> RequiredString(body, "email", isEmail) && ("ip" in body ==> body["ip"].JString?)
    ensures r.Some? ==> r.value == NormaliseEmail(body["email"].str)
  {
    if "email" in body && ("ip" in body ==> body["ip"].JString?) then EmailSchema(isEmail, body["email"]) else None
  }

  /** verifyResetTokenSchema: `{ token: resetTokenSchema }`; returns the token. */
  function VerifyResetTokenSchema(query: Body): (r: Option<string>)
    ensures r.Some? <==> RequiredString(query, "token", ResetTokenAccepts)
    ensures r.Some? ==> r.value == query["token"].str && |r.value| == 64
  {
    if RequiredString(query, "token", ResetTokenAccepts) then Some(query["token"].str) else None
  }

  datatype ResetPasswordData = ResetPasswordData(token: string, newPassword: string, confirmPassword: string)

  /** resetPasswordSchema: token, a strong new password, a non-empty
      confirmation, and the refinement that the two passwords are equal. */
  function ResetPasswordSchema(body: Body): (r: Option<ResetPasswordData>)
    ensures r.Some? <==>
      && RequiredString(body, "token", ResetTokenAccepts)
      && RequiredString(body, "newPassword", PasswordAccepts)
      && RequiredString(body, "confirmPassword", NonEmpty)
      && body["newPassword"].str == body["confirmPassword"].str
    ensures r.Some? ==> r.value.newPassword == r.value.confirmPassword && PasswordAccepts(r.value.newPassword)
    ensures r.Some? ==> r.value.token == body["token"].str && ResetTokenAccepts(r.value.token)
  {
    if && RequiredString(body, "token", ResetTokenAccepts)
       && RequiredString(body, "newPassword", PasswordAccepts)
       && RequiredString(body, "confirmPassword", NonEmpty)
       && body["newPassword"].str == body["confirmPassword"].str
    then Some(ResetPasswordData(body["token"].str, body["newPassword"].str, body["confirmPassword"].str))
    else None
  }
}

=== FILE: text.dfy ===
/** Strings and numbers as the JavaScript runtime sees them: `length` in
    UTF-16 code units, `toLowerCase` (on ASCII letters), `trim`, `includes`,
    `Array.prototype.join`, and powers of ten. */
module Text {

  datatype Option<+T> = None | Some(value: T)

  /** JavaScript truthiness of an optional string: defined and not "". */
  predicate Truthy(s: Option<string>) { s.Some? && s.value != "" }

  predicate IsUpperAscii(c: char) { 'A' <= c <= 'Z' }
  predicate IsLowerAscii(c: char) { 'a' <= c <= 'z' }
  predicate IsDigit(c: char) { '0' <= c <= '9' }

  /** A character outside the Basic Multilingual Plane takes two UTF-16 code units. */
  predicate IsBmp(c: char) { (c as int) < 0x10000 }

  /** JavaScript's `s.length`: the number of UTF-16 code units of `s`. */
  function Utf16Length(s: string): (n: nat)
    ensures |s| <= n <= 2 * |s|
    ensures n == |s| <==> forall i :: 0 <= i < |s| ==> IsBmp(s[i])
  {
    if s == [] then 0
    else (if IsBmp(s[0]) then 1 else 2) + Utf16Length(s[1..])
  }

  // ---------------------------------------------------------------- case

  function LowerChar(c: char): char
  {
    if IsUpperAscii(c) then (c as int + 32) as char else c
  }

  /** `s.toLowerCase()`, restricted to the ASCII letters. */
  function Lower(s: string): string
  {
    seq(|s|, i requires 0 <= i < |s| => LowerChar(s[i]))
  }

  predicate NoUpper(s: string)
  {
    forall i :: 0 <= i < |s| ==> !IsUpperAscii(s[i])
  }

  /** Lower-casing leaves no upper-case letter and is the identity on
      strings that have none. */
  lemma LowerFacts(s: string)
    ensures |Lower(s)| == |s| && NoUpper(Lower(s))
    ensures NoUpper(s) ==> Lower(s) == s
  {
  }

  // ---------------------------------------------------------------- trim

  /** The characters `String.prototype.trim` removes: ECMAScript WhiteSpace
      and LineTerminator code points. */
  predicate IsJsWhitespace(c: char)
  {
    c == '\t' || c == '\n' || c == '\U{B}' || c == '\U{C}' || c == '\r' || c == ' '
    || c == '\U{A0}' || c == '\U{1680}' || ('\U{2000}' <= c <= '\U{200A}')
    || c == '\U{2028}' || c == '\U{2029}' || c == '\U{202F}' || c == '\U{205F}'
    || c == '\U{3000}' || c == '\U{FEFF}'
  }

  /** Neither end of `s` is white space. */
  predicate IsTrimmed(s: string)
  {
    s == [] || (!IsJsWhitespace(s[0]) && !IsJsWhitespace(s[|s| - 1]))
  }

  /** Length of the white-space prefix of `s`. */
  function LeadingSpace(s: string): (i: nat)
    ensures i <= |s|
    ensures forall k :: 0 <= k < i ==> IsJsWhitespace(s[k])
    ensures i < |s| ==> !IsJsWhitespace(s[i])
  {
    if s != [] && IsJsWhitespace(s[0]) then 1 + LeadingSpace(s[1..]) else 0
  }

  /** Index where the white-space suffix of `s` starts. */
  function TrailingStart(s: string): (j: nat)
    ensures j <= |s|
    ensures forall k :: j <= k < |s| ==> IsJsWhitespace(s[k])
    ensures 0 < j ==> !IsJsWhitespace(s[j - 1])
  {
    if s != [] && IsJsWhitespace(s[|s| - 1]) then TrailingStart(s[..|s| - 1]) else |s|
  }

  /** `s.trim()`: drop white space at both ends. */
  function Trim(s: string): (r: string)
    ensures IsTrimmed(r) && |r| <= |s|
    ensures forall c :: c in r ==> c in s
    ensures r == [] <==> forall k :: 0 <= k < |s| ==> IsJsWhitespace(s[k])
    ensures IsTrimmed(s) ==> r == s
    ensures exists i, j :: 0 <= i <= j <= |s| && r == s[i..j]
              && (forall k :: 0 <= k < i ==> IsJsWhitespace(s[k]))
              && (forall k :: j <= k < |s| ==> IsJsWhitespace(s[k]))
  {
    var i := LeadingSpace(s);
    var j := TrailingStart(s);
    if i == |s| then
      assert s[|s|..|s|] == [];
      []
    else
      // s[i] is not white space while everything from j on is
      assert !IsJsWhitespace(s[i]);
      s[i..j]
  }

  // ---------------------------------------------------------------- search and join

  predicate OccursAt(s: string, sub: string, i: int)
  {
    0 <= i && i + |sub| <= |s| && s[i..i + |sub|] == sub
  }

  /** `s.includes(sub)`. */
  function Includes(s: string, sub: string): (b: bool)
    ensures b <==> exists i :: OccursAt(s, sub, i)
    decreases |s|
  {
    if |sub| > |s| then false
    else if s[..|sub|] == sub then (assert OccursAt(s, sub, 0); true)
    else
      var rest := Includes(s[1..], sub);
      assert forall i :: OccursAt(s[1..], sub, i) <==> OccursAt(s, sub, i + 1);
      assert forall i :: OccursAt(s, sub, i) ==> i == 0 || OccursAt(s[1..], sub, i - 1);
      rest
  }

  /** A string that lacks the first character of `sub` cannot contain `sub`. */
  lemma FirstCharAbsent(s: string, sub: string)
    requires |sub| > 0 && sub[0] !in s
    ensures !Includes(s, sub)
  {
    assert forall i :: OccursAt(s, sub, i) ==> s[i] in s;
  }

  /** `parts.join(sep)`. */
  function Join(parts: seq<string>, sep: string): string
    decreases |parts|
  {
    if |parts| == 0 then ""
    else if |parts| == 1 then parts[0]
    else parts[0] + sep + Join(parts[1..], sep)
  }

  /** Appending one more part adds the separator and that part at the end. */
  lemma {:induction false} JoinSnoc(parts: seq<string>, p: string, sep: string)
    requires |parts| > 0
    ensures Join(parts + [p], sep) == Join(parts, sep) + sep + p
    decreases |parts|
  {
    if |parts| == 1 {
      assert (parts + [p])[1..] == [p];
    } else {
      assert (parts + [p])[1..] == parts[1..] + [p];
      JoinSnoc(parts[1..], p, sep);
    }
  }

  // ---------------------------------------------------------------- decimal numbers

  function Pow10(n: nat): (p: nat)
    ensures p >= 1
  {
    if n == 0 then 1 else 10 * Pow10(n - 1)
  }

  /** Number of decimal digits of `x` (0 has one). */
  function DecimalDigits(x: nat): (d: nat)
  {
    if x < 10 then 1 else 1 + DecimalDigits(x / 10)
  }

  /** The numbers with exactly `d` decimal digits are those in [10^(d-1), 10^d). */
  lemma {:induction false} DigitsOfRange(x: nat, d: nat)
    requires 1 <= d && Pow10(d - 1) <= x < Pow10(d)
    ensures DecimalDigits(x) == d
    decreases d
  {
    if d > 1 {
      assert Pow10(d - 1) == 10 * Pow10(d - 2);
      assert x >= 10;
      DigitsOfRange(x / 10, d - 1);
    }
  }
}
